=== FILE: README.md ===
# VMAX storage driver and executor — a Dafny model

This project models the core of libStorage's EMC VMAX driver. It has two parts.

- **The storage driver** (`VmaxStorage`). It works over an abstract VMAX array (`VmaxArray`) that holds:
  - a volume table keyed by volume ID;
  - the array's listing order;
  - the storage groups and the volumes in each;
  - the next volume number to hand out;
  - a set of client calls on which the transport fails;
  - a log of every client call made.

  Each call of the management REST client is a pure transition. It returns the next array state together with a success value or an `ArrayError`. That error names the call and classifies the failure as not found, conflict, invalid or transport.

  On top of that state the model covers each driver operation:
  - `Volumes`: list, then fetch each volume; all or nothing.
  - `VolumeInspect`: an empty-ID guard, then field mapping.
  - `VolumeCreate`: fills unset options with zero values and builds the single-volume create request against the `EMCDOJO` group. The size travels as its base-10 rendering.
  - `VolumeRemove`.
  - `VolumeAttach` and `VolumeDetach`: move a volume between the `EMCDOJO` (detached) and `CloudFoundry` (attached) groups. Each removes first, adds second and then re-inspects, stopping at the first failure.
  - The `eff` error-field merge and the `thinOrThick` default.
- **The storage executor** (`VmaxExecutor`).
  - The local device map is built from the entries of `/dev/disk/by-id`. An entry contributes when its name matches `^wwn-0x\w*$`. Its key is the last 32 characters of the name. When two entries share a key, the later entry in the listing wins; `ioutil.ReadDir` sorts entries by name, so that is the lexicographically greater name.
  - The instance ID is built from the iSCSI initiator name. That name is field 1 of the file's last line, split on `=`.
  - The directory listing (name plus resolved symlink target) and the file's lines are inputs.

The support modules are:
- `Wrappers`: `Option`, `Result` and `Outcome`.
- `Decimal`: `strconv.FormatInt` base 10 and its inverse, with a round-trip proof.
- `GoStrings`: RE2's `\w` class, `strings.Replace` with n = 1, `strings.Split`/`Join` on one character, and a split/join round trip.

The array's consistency invariant `VmaxArray.Wf` requires that:
- the listing names every volume exactly once;
- each record is filed under its own ID;
- every ID in use was handed out below the next volume number;
- groups hold only existing volumes.

Every client call and every driver operation is proved to keep it. `Volumes` changes nothing but the call log, by its own contract, so it keeps it as well. No operation moves the next volume number backwards, so an ID is never handed out twice.

Parts of the driver source do not compile as written. The model follows the evident intent:
- Attach and detach use the driver's system ID where an undefined `symmetricID` appears.
- Attach and detach wrap their errors with the same volume-ID fields as `VolumeRemove` (an undefined `fields` appears).
- Detach returns the volume it re-inspected (an undefined `volume` appears).
- Every error is returned with the declared result arity.

A missing create size is not rejected: the code sends size 0 (`vmax_storage.go`, lines 162-172), and so does the model.

Go runtime panics in the executor are modelled as an explicit `IndexOutOfRange` error result, never as a precondition. They are slicing a WWN name shorter than 32 characters, and indexing field 1 of a last line without `=`. The driver's panics on a nil options pointer and on an empty fetch result are listed under "## Left out".

## Model

| member | source | states |
|---|---|---|
| VmaxStorage.Volumes | drivers/storage/vmax/storage/vmax_storage.go:93-118 | a list failure is returned with an empty list; otherwise exactly one volume per listed ID, in listing order, with the ID from the listing and name, type and size from the fetched record, iff every fetch succeeds; on the first failing fetch, that fetch's error and an empty list (never a partial list), after exactly the fetches up to it; only the call log changes |
| VmaxStorage.VolumeInspect | drivers/storage/vmax/storage/vmax_storage.go:120-145 | an empty ID fails with "no volumeID specified" and leaves the array untouched (no call); otherwise exactly one fetch, whose error is returned unchanged; success iff that fetch succeeds, with Name = VolumeIdentifier, ID = VolumeID, Status = "", Type and Size from the record, and no availability zone |
| VmaxStorage.CreateRequest | drivers/storage/vmax/storage/vmax_storage.go:166-178 | the create request expands the group by exactly one new volume, in GB, with "FBA" emulation; its size text is the canonical base-10 rendering of the size (no leading zero, no "-0") and parses back to exactly that size |
| VmaxStorage.VolumeCreate | drivers/storage/vmax/storage/vmax_storage.go:147-186 | exactly one create call, against the EMCDOJO group, with the requested size (0 when none is given); success iff that call succeeds; the returned volume carries the given availability zone, type and size, and zero values for absent ones, an empty name and ID (it is not read back); on failure the array is unchanged apart from the log and the error's classification is lost (`fmt.Errorf` flattens it) |
| VmaxStorage.VolumeRemove | drivers/storage/vmax/storage/vmax_storage.go:209-224 | exactly one delete call against EMCDOJO; success implies the volume existed, was in EMCDOJO and in no other group, and removes it from the table, the listing and every group, changing nothing else (next volume number, array ID) but the log; failure changes nothing but the log, wraps the client error with the volume-ID fields and keeps its classification; a volume missing from the table always fails |
| VmaxStorage.VolumeAttach | drivers/storage/vmax/storage/vmax_storage.go:226-259 | removal from EMCDOJO is the first call; the attach succeeds exactly when the removal, the add and the fetch all succeed; a refused removal ends the attach after that call with membership unchanged; a refused add ends it after the removal and the add, with no fetch, the volume out of EMCDOJO and CloudFoundry unchanged; both refusals give an error carrying the volume-ID fields and keeping the refusal's classification; a failed re-inspection leaves the volume moved to CloudFoundry and keeps the fetch's classification (nothing is rolled back); success means the volume moved from EMCDOJO to CloudFoundry after exactly removal, add and fetch; no other volume's membership and no volume record changes; the volume returned is the record the final fetch reads (name, ID, type, size, empty status), and the second result is its ID |
| VmaxStorage.VolumeDetach | drivers/storage/vmax/storage/vmax_storage.go:261-294 | the same guarantees with the groups swapped: removal from CloudFoundry first, then add to EMCDOJO, then inspection; success exactly when all three succeed; the volume returned is the record the final fetch reads |
| VmaxStorage.MoveVolumeContract | drivers/storage/vmax/storage/vmax_storage.go:231-258 | the shared remove-add-inspect sequence meets all six parts of the move guarantee (frame, refused removal, refused add, failed re-inspection, success, success exactly when all three calls succeed) for any two distinct groups |
| VmaxStorage.MoveFrameHolds | drivers/storage/vmax/storage/vmax_storage.go:231-258 | a move starts with the removal call, extends the log, and changes only the membership of the moved volume |
| VmaxStorage.MoveRefusalsHold | drivers/storage/vmax/storage/vmax_storage.go:231-247 | a refused removal stops the move after that one call; a refused add stops it after the removal and the add, with no fetch, the volume out of the source group and the destination group unchanged; both errors are `goof.WithFieldsE` with the volume-ID fields and keep the refusal's classification |
| VmaxStorage.MoveFailedInspectHolds | drivers/storage/vmax/storage/vmax_storage.go:249-256 | when removal and add succeed but the re-inspection fails, the move fails with a `goof.WithError` error keeping the fetch's classification, and the volume stays moved: in the destination group, out of the source group |
| VmaxStorage.MoveSuccessHolds | drivers/storage/vmax/storage/vmax_storage.go:231-258 | a successful move found the volume in the source group and not in the destination, leaves it in the destination only, and returns the volume as the final fetch reads it |
| VmaxStorage.MoveCompletesWhenAllPass | drivers/storage/vmax/storage/vmax_storage.go:231-258 | the move succeeds if and only if the removal, the add and the fetch of a non-empty ID all succeed |
| VmaxStorage.RemovalFrame | drivers/storage/vmax/storage/vmax_storage.go:231 | removing a volume from a group changes no other volume's membership and nothing but groups and the log |
| VmaxStorage.AddFrame | drivers/storage/vmax/storage/vmax_storage.go:235-245 | adding one volume to a group changes no other volume's membership and nothing but groups and the log |
| VmaxStorage.MoveVolume | drivers/storage/vmax/storage/vmax_storage.go:231-258 | the shared body of attach and detach (also :266-293): the removal from the source group is the first call; the volume table, listing and next ID never change; every failure is a goof-wrapped error |
| VmaxStorage.VolumeFields | drivers/storage/vmax/storage/vmax_storage.go:214-216 | the error context of a volume operation holds exactly the volume ID and the provider entry "scaleIO" |
| VmaxStorage.Eff | drivers/storage/vmax/storage/vmax_storage.go:338-348 | every caller key keeps the caller's value; the keys are the caller's plus "provider"; "provider" is "scaleIO" unless the caller supplied it; a nil map gives only the provider entry |
| VmaxStorage.ThinOrThick | drivers/storage/vmax/storage/vmax_storage.go:381-387 | the configured mode when one is set, "ThinProvisioned" otherwise; never empty |
| VmaxStorageProperties.AttachThenDetachRestores | drivers/storage/vmax/storage/vmax_storage.go:226-294 | a successful attach followed by a successful detach restores both groups' membership exactly, and the table, listing order and next ID are untouched |
| VmaxStorageProperties.MoveBackRestores | drivers/storage/vmax/storage/vmax_storage.go:226-294 | moving a volume from one group to another and back restores the membership, when it started in the first group only |
| VmaxStorageProperties.DetachAfterAttachSucceeds | drivers/storage/vmax/storage/vmax_storage.go:226-294 | after a successful attach, detach succeeds unless the transport fails on one of its two membership calls |
| VmaxStorageProperties.InspectReportsRequestedId | drivers/storage/vmax/storage/vmax_storage.go:136-142 | on a consistent array, a successful inspection reports the ID it was asked for |
| VmaxStorageProperties.ListedIsInspected | drivers/storage/vmax/storage/vmax_storage.go:97-144 | on a consistent array, the volume the listing reports for a fetchable ID is exactly what inspecting that ID returns |
| VmaxStorageProperties.AttachReportsRequestedId | drivers/storage/vmax/storage/vmax_storage.go:249-258 | on a consistent array, attach's second result is the requested volume ID |
| VmaxStorageProperties.CreatedVolumeIsInspectable | drivers/storage/vmax/storage/vmax_storage.go:166-185 | a successful create adds exactly one volume, under a fresh ID: the table gains that record and keeps the others, the listing gains the ID at its end, EMCDOJO gains it and no other group changes, the next volume number advances by one, and nothing else but the log changes; unless the transport fails on that fetch, inspecting it gives the requested size, "FBA" type and no name |
| VmaxStorageProperties.NextIdNeverDecreases | drivers/storage/vmax/storage/vmax_storage.go:120-294 | inspect, remove, attach and detach keep the next volume number; create advances it by one exactly when it succeeds |
| VmaxStorageProperties.CreateAdvancesNextId | drivers/storage/vmax/storage/vmax_storage.go:180-185 | a successful create advances the next volume number by one, a failed one leaves it |
| VmaxStorageProperties.RemovedVolumeIsGone | drivers/storage/vmax/storage/vmax_storage.go:209-224 | after a successful remove, inspecting the volume fails, as "not found" unless the transport fails |
| VmaxStorageProperties.RemoveAttachedIsRefused | drivers/storage/vmax/storage/vmax_storage.go:218-220 | removing a volume that is in the attached group always fails, as a conflict when the request is otherwise valid |
| VmaxStorageProperties.RemoveMissingIsNotFound | drivers/storage/vmax/storage/vmax_storage.go:218-220 | removing a volume the array does not have fails with a "not found" classification unless the transport fails |
| VmaxStorageProperties.CreateIgnoresName | drivers/storage/vmax/storage/vmax_storage.go:147-186 | the volume name has no effect on creation: neither the request nor the result depends on it |
| VmaxStorageProperties.EffIdempotent | drivers/storage/vmax/storage/vmax_storage.go:338-348 | merging the provider entry into an already merged map changes nothing |
| VmaxStorageProperties.MovePreservesWf | drivers/storage/vmax/storage/vmax_storage.go:231-258 | a move between two groups keeps the array consistent whatever its outcome |
| VmaxStorageProperties.InspectPreservesWf | drivers/storage/vmax/storage/vmax_storage.go:120-145 | inspection keeps the array consistent |
| VmaxStorageProperties.CreatePreservesWf | drivers/storage/vmax/storage/vmax_storage.go:147-186 | creation keeps the array consistent |
| VmaxStorageProperties.RemovePreservesWf | drivers/storage/vmax/storage/vmax_storage.go:209-224 | removal keeps the array consistent |
| VmaxStorageProperties.AttachDetachPreserveWf | drivers/storage/vmax/storage/vmax_storage.go:226-294 | attach and detach keep the array consistent |
| VmaxArray.NextIdIsFresh | drivers/storage/vmax/storage/vmax_storage.go:180 | on a consistent array, the ID a create call hands out is not yet in use |
| VmaxArray.CreateVolumePreservesWf | drivers/storage/vmax/storage/vmax_storage.go:180 | the create call keeps the array consistent, whether it succeeds or fails |
| VmaxArray.DeleteVolumePreservesWf | drivers/storage/vmax/storage/vmax_storage.go:218 | the delete call keeps the array consistent |
| VmaxArray.RemoveFromGroupPreservesWf | drivers/storage/vmax/storage/vmax_storage.go:231 | removing a volume from a group keeps the array consistent |
| VmaxArray.EditStorageGroupPreservesWf | drivers/storage/vmax/storage/vmax_storage.go:245 | the storage-group edit keeps the array consistent |
| VmaxArray.ExpandGroupPreservesWf | drivers/storage/vmax/storage/vmax_storage.go:166-180 | creating a volume in a group extends table, listing and group consistently |
| Decimal.FormatInt | drivers/storage/vmax/storage/vmax_storage.go:172 | the rendering starts with '-' exactly for negative numbers and is otherwise made of digits, in canonical form: no leading zero, and no "-0" |
| Decimal.FormatParseRoundTrip | drivers/storage/vmax/storage/vmax_storage.go:172 | parsing the base-10 rendering of any integer gives that integer back |
| Decimal.FormatInjective | drivers/storage/vmax/storage/vmax_storage.go:172 | distinct sizes render to distinct strings |
| Decimal.NatDigitsRoundTrip | drivers/storage/vmax/storage/vmax_storage.go:172 | the digit string of a natural number has that number as its value |
| VmaxExecutor.SelectPattern | drivers/storage/vmax/executor/vmax_executor.go:79-85 | the dm-name pattern is chosen exactly when device-mapper or multipath is on, the WWN pattern exactly when both are off |
| VmaxExecutor.OnlyWwnPatternIsUsed | drivers/storage/vmax/executor/vmax_executor.go:60-66 | both switches are off, so only the WWN pattern is ever used |
| VmaxExecutor.StripIsNoOp | drivers/storage/vmax/executor/vmax_executor.go:89 | replacing the literal text "^wwn-0x" leaves every WWN entry name unchanged |
| VmaxExecutor.StripAndSlice | drivers/storage/vmax/executor/vmax_executor.go:89-91 | the key is the last 32 characters of the full name; it panics exactly when the name is shorter than 32 |
| VmaxExecutor.ScanEntries | drivers/storage/vmax/executor/vmax_executor.go:87-96 | the scan panics exactly when some WWN entry is shorter than 32 characters; otherwise its keys are exactly those of the WWN entries, each mapped to the resolved path of the last entry with that key |
| VmaxExecutor.BuildMapIsScanned | drivers/storage/vmax/executor/vmax_executor.go:87-94 | the keys of the built map are exactly the keys of the WWN entries, and each maps to the resolved path of the last entry with that key |
| VmaxExecutor.LocalWwnDevices | drivers/storage/vmax/executor/vmax_executor.go:68-97 | a directory-read failure returns that error and no map; otherwise it fails exactly when a WWN entry is shorter than 32; on success every key has length 32, only WWN entries contribute, and a later entry overwrites an earlier one with the same key |
| VmaxExecutor.GetLocalDevices | drivers/storage/vmax/executor/vmax_executor.go:45-58 | a read error is returned unchanged; a readable listing fails exactly when a WWN entry is shorter than 32 characters, and then with the slice panic; on success the device map, with keys of length 32, is labelled with the driver name "vmax" |
| VmaxExecutor.InitiatorName | drivers/storage/vmax/executor/vmax_executor.go:127-138 | only the last line counts; it panics exactly when that line has no '='; otherwise it succeeds exactly when field 1 of the split is non-empty, and fails with "error reading /etc/iscsi/initiatorname.iscsi" when it is empty; a successful name is field 1, has no '=', and is the text between the first '=' and the next '=' or the end of the line |
| VmaxExecutor.LastLine | drivers/storage/vmax/executor/vmax_executor.go:127-132 | the scanner keeps the last line read, "" for an empty file (a definition) |
| VmaxExecutor.InitiatorLineRoundTrip | drivers/storage/vmax/executor/vmax_executor.go:127-138 | whatever lines come before, a last line `key=name` yields exactly `name` when neither part contains '=' and the name is not empty |
| VmaxExecutor.GetInstanceID | drivers/storage/vmax/executor/vmax_executor.go:107-126 | an open failure becomes "error reading /etc/iscsi/initiatorname.iscsi" plus the cause; initiator-name errors propagate unchanged; a name read successfully always yields an ID with driver "vmax" carrying that name |
| GoStrings.ReplaceFirst | drivers/storage/vmax/executor/vmax_executor.go:89 | text with no occurrence of the pattern's first character is unchanged; a leading occurrence is replaced |
| GoStrings.ReplaceFirstLeftmost | drivers/storage/vmax/executor/vmax_executor.go:89 | `strings.Replace(s, pat, repl, 1)` replaces the leftmost occurrence of `pat`, wherever it is, and keeps the text around it |
| GoStrings.ReplaceFirstNoMatch | drivers/storage/vmax/executor/vmax_executor.go:89 | text in which `pat` does not occur is unchanged |
| GoStrings.MatchesPrefixWords | drivers/storage/vmax/executor/vmax_executor.go:83-88 | the anchored pattern `^<prefix>\w*$`: the literal prefix, then only ASCII letters, digits and underscores to the end (a definition) |
| GoStrings.Split | drivers/storage/vmax/executor/vmax_executor.go:133 | never empty; no piece contains the separator; there is a second piece exactly when the separator occurs |
| GoStrings.SplitJoin | drivers/storage/vmax/executor/vmax_executor.go:133 | joining the pieces back with the separator gives the input |
| GoStrings.SecondField | drivers/storage/vmax/executor/vmax_executor.go:133 | the second piece is the text between the first separator and the next one, or the end |

## Left out

- The govmaxapi REST client is replaced by the abstract array. Its wire format, TLS, credentials and client construction in `Init` are not modelled. Which requests the array refuses is a modelling choice:
  - a transport fault set;
  - an unknown system ID;
  - a missing group or volume;
  - a volume already in the group;
  - the deletion of a volume that is not in the named group, or that is still in another group (an attached volume);
  - a create request that is not one GB volume, or whose size text is not a non-negative decimal integer.
- The type of a created volume is its emulation, as the array is modelled.
- `InstanceInspect` is left out. It relies on a `system` collaborator that the source never defines, so its fallback path cannot be recovered.
- Driver registration, logging, the gofig configuration getters and `drivers/storage/vmax/vmax.go` are left out. They are configuration-key registration with default values only.
- `getLocalMACAddress` is left out: it shells out to `cat`.
- Reading `/dev/disk/by-id`, resolving symlinks and scanning the initiator file are inputs to the model:
  - the directory listing is given as a list of (name, resolved path) entries;
  - the file is given as its lines.
- The stubbed snapshot, copy, `NextDevice`, `NextDeviceInfo` and `VolumeDetachAll` methods are left out: each returns nil and has no behaviour.
- The `Name` and `Type` getters are left out: each returns a constant.
- A nil `opts` pointer passed to `VolumeCreate` is not modelled. The options are always present, and each field is optional.
- VmaxStorage.Volumes and VmaxStorage.VolumeInspect: the array's capacity is a whole number of GB. The `int64` conversion of a fractional capacity (lines 112 and 141) is not modelled.
- VmaxStorage.VolumeCreate: the size is an unbounded integer. The 64-bit bound of `int64` is not modelled.
- VmaxStorage.VolumeAttach and VmaxStorage.VolumeDetach: the options pointer is not modelled. The source reads `opts.Opts` when it re-inspects (lines 252 and 287), which panics on a nil pointer after both membership calls have succeeded.
- VmaxStorage.Volumes and VmaxStorage.VolumeInspect: a successful fetch always returns the record. The source's `Volume[0]` (lines 108 and 137) would panic on an empty result list, which the model's array never returns.
- VmaxStorage.Eff: field values are text. Go's `interface{}` values, and the `opts` struct logged by `VolumeCreate`, are not modelled.
- VmaxExecutor.GetInstanceID: the metadata holds the initiator name itself. The JSON encoding of `MarshalMetadata`, and its error path, are not modelled.
- VmaxExecutor.LocalWwnDevices: the dead device-mapper branch is not scanned. The model proves it is never selected.
- VmaxExecutor.LocalWwnDevices: a failed symlink resolution maps to "", because the source ignores that error.
- VmaxExecutor.LocalWwnDevices: names are treated as ASCII, where Go's byte indexing and character indexing agree.

=== FILE: decimal.dfy ===
/** Base-10 rendering and parsing of integers, as done by Go's
    `strconv.FormatInt(n, 10)` and its inverse. */
module Decimal {
  import opened Wrappers

  predicate IsDigit(c: char) {
    '0' <= c <= '9'
  }

  predicate AllDigits(s: string) {
    forall i | 0 <= i < |s| :: IsDigit(s[i])
  }

  function DigitChar(d: nat): (c: char)
    requires d < 10
    ensures IsDigit(c)
  {
    ('0' as int + d) as char
  }

  function DigitValue(c: char): (d: nat)
    requires IsDigit(c)
    ensures d < 10
    ensures DigitChar(d) == c
  {
    (c as int - '0' as int) as nat
  }

  /** Decimal digits of `n`, most significant first, no leading zero. */
  function NatDigits(n: nat): (s: string)
    ensures |s| >= 1 && AllDigits(s)
    ensures |s| > 1 ==> s[0] != '0'
    ensures n > 0 ==> s[0] != '0'
    decreases n
  {
    if n < 10 then [DigitChar(n)] else NatDigits(n / 10) + [DigitChar(n % 10)]
  }

  /** Value of a string of decimal digits ("" is 0). */
  function DigitsValue(s: string): nat
    requires AllDigits(s)
    decreases |s|
  {
    if |s| == 0 then 0 else DigitsValue(s[..|s| - 1]) * 10 + DigitValue(s[|s| - 1])
  }

  /** strconv.FormatInt(n, 10): a leading '-' exactly for negative numbers,
      then the digits of |n| in canonical form: no leading zero, and "0"
      only for zero. */
  function FormatInt(n: int): (s: string)
    ensures |s| >= 1
    ensures s[0] == '-' <==> n < 0
    ensures n >= 0 ==> AllDigits(s)
    ensures n < 0 ==> |s| >= 2 && AllDigits(s[1..])
    ensures n >= 0 && |s| > 1 ==> s[0] != '0'
    ensures n < 0 ==> s[1] != '0'
  {
    if n < 0 then "-" + NatDigits(-n) else NatDigits(n)
  }

  /** Decimal parsing: an optional '-' followed by at least one digit. */
  function ParseInt(s: string): Option<int> {
    if |s| > 0 && s[0] == '-' then
      if |s| > 1 && AllDigits(s[1..]) then Some(-(DigitsValue(s[1..]) as int)) else None
    else if |s| > 0 && AllDigits(s) then Some(DigitsValue(s))
    else None
  }

  lemma {:induction false} NatDigitsRoundTrip(n: nat)
    ensures DigitsValue(NatDigits(n)) == n
    decreases n
  {
    if n >= 10 {
      var s := NatDigits(n);
      NatDigitsRoundTrip(n / 10);
      assert s[..|s| - 1] == NatDigits(n / 10);
      assert s[|s| - 1] == DigitChar(n % 10);
      assert DigitValue(DigitChar(n % 10)) == n % 10;
    } else {
      assert DigitValue(DigitChar(n)) == n;
    }
  }

  /** Parsing undoes rendering: the request's size string carries exactly
      the requested number. */
  lemma FormatParseRoundTrip(n: int)
    ensures ParseInt(FormatInt(n)) == Some(n)
  {
    var s := FormatInt(n);
    if n < 0 {
      assert s[1..] == NatDigits(-n);
      NatDigitsRoundTrip(-n);
    } else {
      NatDigitsRoundTrip(n);
    }
  }

  /** Distinct numbers render to distinct strings. */
  lemma FormatInjective(m: int, n: int)
    ensures FormatInt(m) == FormatInt(n) ==> m == n
  {
    FormatParseRoundTrip(m);
    FormatParseRoundTrip(n);
  }
}

=== FILE: gostrings.dfy ===
/** The fragments of Go's `regexp` and `strings` packages the executor
    relies on, over strings of ASCII characters (Go indexes strings by byte;
    every name that reaches these functions is ASCII, so bytes and characters
    coincide). */
module GoStrings {

  /** RE2's `\w`: ASCII letters, digits and underscore. */
  predicate IsWordChar(c: char) {
    || ('a' <= c <= 'z')
    || ('A' <= c <= 'Z')
    || ('0' <= c <= '9')
    || c == '_'
  }

  /** Whether `s` matches the anchored pattern `^<prefix>\w*$`, where
      `prefix` is a literal (no metacharacters). Go's `$` without the `m`
      flag matches only at the end of the text. */
  predicate MatchesPrefixWords(prefix: string, s: string) {
    && |s| >= |prefix|
    && s[..|prefix|] == prefix
    && forall i | |prefix| <= i < |s| :: IsWordChar(s[i])
  }

  /** `strings.Replace(s, pat, repl, 1)` for a non-empty `pat`: the leftmost
      occurrence of the literal text `pat` is replaced, nothing else. */
  function ReplaceFirst(s: string, pat: string, repl: string): (r: string)
    requires |pat| > 0
    ensures (forall i | 0 <= i < |s| :: s[i] != pat[0]) ==> r == s
    ensures |s| >= |pat| && s[..|pat|] == pat ==> r == repl + s[|pat|..]
    decreases |s|
  {
    if |s| < |pat| then s
    else if s[..|pat|] == pat then
      assert s[0] == pat[0];
      repl + s[|pat|..]
    else [s[0]] + ReplaceFirst(s[1..], pat, repl)
  }

  /** The literal text `pat` occurs in `s` at position `i`. */
  predicate OccursAt(s: string, pat: string, i: int) {
    0 <= i && i + |pat| <= |s| && s[i..i + |pat|] == pat
  }

  /** `strings.Replace(s, pat, repl, 1)` replaces the leftmost occurrence:
      when `pat` first occurs at `i`, the result is `s` with that occurrence
      replaced by `repl`. */
  lemma {:induction false} ReplaceFirstLeftmost(s: string, pat: string, repl: string, i: nat)
    requires |pat| > 0 && OccursAt(s, pat, i)
    requires forall j | 0 <= j < i :: !OccursAt(s, pat, j)
    ensures ReplaceFirst(s, pat, repl) == s[..i] + repl + s[i + |pat|..]
    decreases i
  {
    if i > 0 {
      var t := s[1..];
      ReplaceFirstStep(s, pat, repl);
      forall j | 0 <= j < i - 1 ensures !OccursAt(t, pat, j) {
        ShiftOccurrence(s, pat, j);
      }
      ShiftOccurrence(s, pat, i - 1);
      ReplaceFirstLeftmost(t, pat, repl, i - 1);
      var before, after := t[..i - 1], t[i - 1 + |pat|..];
      assert s[..i] == [s[0]] + before;
      assert after == s[i + |pat|..];
      assert [s[0]] + (before + repl + after) == ([s[0]] + before) + repl + after;
    }
  }

  /** Without a match at the front, the first character is kept and the
      rest is searched. */
  lemma ReplaceFirstStep(s: string, pat: string, repl: string)
    requires |pat| > 0 && |s| > 0 && !OccursAt(s, pat, 0)
    ensures ReplaceFirst(s, pat, repl) == [s[0]] + ReplaceFirst(s[1..], pat, repl)
  {
    if |s| >= |pat| {
      assert s[..|pat|] == s[0..0 + |pat|];
    } else {
      assert ReplaceFirst(s[1..], pat, repl) == s[1..];
      assert s == [s[0]] + s[1..];
    }
  }

  /** An occurrence in `s` at `j + 1` is an occurrence in `s[1..]` at `j`. */
  lemma ShiftOccurrence(s: string, pat: string, j: nat)
    requires |s| > 0
    ensures OccursAt(s[1..], pat, j) <==> OccursAt(s, pat, j + 1)
  {
    if j + |pat| <= |s[1..]| {
      assert s[1..][j..j + |pat|] == s[j + 1..j + 1 + |pat|];
    }
  }

  /** Without any occurrence of `pat`, `strings.Replace` leaves `s` as is. */
  lemma {:induction false} ReplaceFirstNoMatch(s: string, pat: string, repl: string)
    requires |pat| > 0
    requires forall j | 0 <= j <= |s| - |pat| :: !OccursAt(s, pat, j)
    ensures ReplaceFirst(s, pat, repl) == s
    decreases |s|
  {
    if |s| >= |pat| {
      assert !OccursAt(s, pat, 0);
      ReplaceFirstStep(s, pat, repl);
      forall j | 0 <= j <= |s[1..]| - |pat| ensures !OccursAt(s[1..], pat, j) {
        ShiftOccurrence(s, pat, j);
      }
      ReplaceFirstNoMatch(s[1..], pat, repl);
      assert s == [s[0]] + s[1..];
    }
  }

  /** Position of the first `c` in `s`. */
  function IndexOf(s: string, c: char): (i: nat)
    requires c in s
    ensures i < |s| && s[i] == c
    ensures c !in s[..i]
  {
    if s[0] == c then 0 else 1 + IndexOf(s[1..], c)
  }

  /** `strings.Split(s, string(sep))`: the pieces between separators; there
      is always one more piece than there are separators, so the result is
      never empty, and it has a second piece exactly when `sep` occurs. */
  function Split(s: string, sep: char): (fields: seq<string>)
    ensures |fields| >= 1
    ensures forall k | 0 <= k < |fields| :: sep !in fields[k]
    ensures |fields| >= 2 <==> sep in s
    decreases |s|
  {
    if sep !in s then [s]
    else
      var i := IndexOf(s, sep);
      [s[..i]] + Split(s[i + 1..], sep)
  }

  /** `strings.Join(fields, string(sep))`. */
  function Join(fields: seq<string>, sep: char): string
    requires |fields| >= 1
  {
    if |fields| == 1 then fields[0] else fields[0] + [sep] + Join(fields[1..], sep)
  }

  /** Splitting loses nothing: joining the pieces back gives the input. */
  lemma {:induction false} SplitJoin(s: string, sep: char)
    ensures Join(Split(s, sep), sep) == s
    decreases |s|
  {
    if sep in s {
      var i := IndexOf(s, sep);
      var rest := Split(s[i + 1..], sep);
      SplitJoin(s[i + 1..], sep);
      assert Split(s, sep) == [s[..i]] + rest;
      assert (([s[..i]] + rest)[1..]) == rest;
      assert s == s[..i] + [sep] + s[i + 1..];
    }
  }

  /** The second piece of a split is the text between the first separator
      and the next one, or the end of `s` when there is no next one. */
  lemma SecondField(s: string, sep: char)
    requires sep in s
    ensures var i := IndexOf(s, sep);
            var tail := s[i + 1..];
            Split(s, sep)[1] == (if sep in tail then tail[..IndexOf(tail, sep)] else tail)
  {
  }
}

=== FILE: vmax_array.dfy ===
/** An abstract VMAX array as seen through the management REST client:
    a table of volumes, the storage groups and their member volumes, and a
    log of the client calls made so far. Each client call is a pure state
    transition that either succeeds or returns an error carrying the failed
    call and a classification. The REST client's wire format, TLS and
    credentials are not modelled. */
module VmaxArray {
  import opened Wrappers
  import Decimal

  /** One entry of the array's volume table (the first element of the
      `Volume` list a volume fetch returns). */
  datatype VolumeRecord = VolumeRecord(
    volumeId: string,
    volumeIdentifier: string,
    volType: string,
    capGb: nat)

  /** Parameters of a storage-group edit: expanding the group with newly
      created volumes, or adding existing volumes to it. */
  datatype VolumeAttribute = VolumeAttribute(capacityUnit: string, volumeSize: string)
  datatype ExpandParam = ExpandParam(
    numOfVols: int,
    volumeAttribute: VolumeAttribute,
    createNewVolumes: bool,
    emulation: string)
  datatype EditAction = Expand(expand: ExpandParam) | AddVolume(volumeIds: seq<string>)

  /** A client call, as recorded in the call log. */
  datatype Call =
    | ListVolumesCall(sid: string)
    | GetVolumeCall(sid: string, volumeId: string)
    | CreateVolumeCall(sid: string, group: string, action: EditAction)
    | DeleteVolumeCall(sid: string, group: string, volumeId: string)
    | RemoveFromGroupCall(sid: string, group: string, volumeId: string)
    | EditGroupCall(sid: string, group: string, action: EditAction)

  /** How a call failed: a missing system, group or volume; a volume already
      in the group; a request the array refuses; or a transport failure. */
  datatype Kind = NotFound | Conflict | Invalid | Transport

  datatype ArrayError = ArrayError(kind: Kind, call: Call)

  /** `faults` are the calls on which the transport fails (whenever they are
      made); `calls` is the log of every call made, in order. */
  datatype Array = Array(
    symmetrixId: string,
    table: map<string, VolumeRecord>,
    order: seq<string>,
    groups: map<string, set<string>>,
    nextId: nat,
    faults: set<Call>,
    calls: seq<Call>)

  predicate Distinct(s: seq<string>) {
    forall i, j | 0 <= i < j < |s| :: s[i] != s[j]
  }

  /** `id` is a volume ID the array has already handed out: the decimal
      rendering of a number below `nextId`. */
  predicate IssuedBefore(id: string, nextId: nat) {
    var n := Decimal.ParseInt(id);
    n.Some? && 0 <= n.value < nextId
  }

  /** The array's own consistency: the listing order names every volume
      exactly once, each record is filed under its own ID, IDs are never
      reused, and groups hold only existing volumes. */
  ghost predicate Wf(a: Array) {
    && Distinct(a.order)
    && (forall id :: id in a.table <==> id in a.order)
    && (forall id | id in a.table :: a.table[id].volumeId == id && IssuedBefore(id, a.nextId))
    && (forall g | g in a.groups :: a.groups[g] <= a.table.Keys)
  }

  function Log(a: Array, c: Call): (a': Array)
    ensures a'.calls == a.calls + [c]
  {
    a.(calls := a.calls + [c])
  }

  /** Failures common to every call: an injected transport fault, then an
      unknown system ID. */
  function Refusal(a: Array, sid: string, c: Call): Option<Kind> {
    if c in a.faults then Some(Transport)
    else if sid != a.symmetrixId then Some(NotFound)
    else None
  }

  // ---------------------------------------------------------------------
  // Responses (independent of the call log)
  // ---------------------------------------------------------------------

  function ListVolumesResponse(a: Array, sid: string): Result<seq<string>, ArrayError> {
    var c := ListVolumesCall(sid);
    match Refusal(a, sid, c)
    case Some(k) => Failure(ArrayError(k, c))
    case None => Success(a.order)
  }

  function GetVolumeResponse(a: Array, sid: string, id: string): Result<VolumeRecord, ArrayError> {
    var c := GetVolumeCall(sid, id);
    match Refusal(a, sid, c)
    case Some(k) => Failure(ArrayError(k, c))
    case None => if id in a.table then Success(a.table[id]) else Failure(ArrayError(NotFound, c))
  }

  /** Creating one volume of the requested size in group `g`; the new ID is
      the decimal rendering of `nextId`. */
  function ExpandGroup(a: Array, g: string, x: ExpandParam): Result<Array, Kind>
    requires g in a.groups
  {
    var size := Decimal.ParseInt(x.volumeAttribute.volumeSize);
    if x.numOfVols != 1 || !x.createNewVolumes || x.volumeAttribute.capacityUnit != "GB"
       || size.None? || size.value < 0
    then Failure(Invalid)
    else
      var id := Decimal.FormatInt(a.nextId);
      var rec := VolumeRecord(id, "", x.emulation, size.value as nat);
      Success(a.(table := a.table[id := rec],
                 order := a.order + [id],
                 groups := a.groups[g := a.groups[g] + {id}],
                 nextId := a.nextId + 1))
  }

  /** Adding existing volumes that are not yet members of group `g`. */
  function AddToGroup(a: Array, g: string, ids: seq<string>): Result<Array, Kind>
    requires g in a.groups
  {
    if exists i | 0 <= i < |ids| :: ids[i] !in a.table then Failure(NotFound)
    else if exists i | 0 <= i < |ids| :: ids[i] in a.groups[g] then Failure(Conflict)
    else Success(a.(groups := a.groups[g := a.groups[g] + set i | 0 <= i < |ids| :: ids[i]]))
  }

  function EditGroup(a: Array, sid: string, g: string, action: EditAction, c: Call): Result<Array, ArrayError> {
    match Refusal(a, sid, c)
    case Some(k) => Failure(ArrayError(k, c))
    case None =>
      if g !in a.groups then Failure(ArrayError(NotFound, c))
      else
        var r := match action
          case Expand(x) => ExpandGroup(a, g, x)
          case AddVolume(ids) => AddToGroup(a, g, ids);
        match r
        case Failure(k) => Failure(ArrayError(k, c))
        case Success(a') => Success(a')
  }

  /** `s` without any occurrence of `x`, order kept. */
  function Without(s: seq<string>, x: string): (r: seq<string>)
    ensures forall y :: y in r <==> y in s && y != x
    ensures Distinct(s) ==> Distinct(r)
  {
    if |s| == 0 then []
    else if s[0] == x then Without(s[1..], x)
    else
      var rest := Without(s[1..], x);
      assert Distinct(s) ==> s[0] !in s[1..] && Distinct(s[1..]) by {
        if Distinct(s) {
          forall k | 0 <= k < |s| - 1 ensures s[1..][k] != s[0] {
            assert s[1..][k] == s[k + 1];
          }
        }
      }
      [s[0]] + rest
  }

  // ---------------------------------------------------------------------
  // Client calls (govmaxapi): each logs itself, then responds
  // ---------------------------------------------------------------------

  function ListVolumes(a: Array, sid: string): (out: (Array, Result<seq<string>, ArrayError>))
    ensures out.0 == Log(a, ListVolumesCall(sid))
    ensures out.1 == ListVolumesResponse(a, sid)
  {
    (Log(a, ListVolumesCall(sid)), ListVolumesResponse(a, sid))
  }

  function GetVolume(a: Array, sid: string, id: string): (out: (Array, Result<VolumeRecord, ArrayError>))
    ensures out.0 == Log(a, GetVolumeCall(sid, id))
    ensures out.1 == GetVolumeResponse(a, sid, id)
  {
    (Log(a, GetVolumeCall(sid, id)), GetVolumeResponse(a, sid, id))
  }

  function CreateVolume(a: Array, sid: string, g: string, action: EditAction): (out: (Array, Outcome<ArrayError>))
  {
    var c := CreateVolumeCall(sid, g, action);
    match EditGroup(a, sid, g, action, c)
    case Failure(e) => (Log(a, c), Fail(e))
    case Success(a') => (Log(a', c), Pass)
  }

  function EditStorageGroup(a: Array, sid: string, g: string, action: EditAction): (out: (Array, Outcome<ArrayError>))
    ensures out.0.calls == a.calls + [EditGroupCall(sid, g, action)]
    ensures action.AddVolume? ==> out.0 == a.(groups := out.0.groups, calls := out.0.calls)
  {
    var c := EditGroupCall(sid, g, action);
    match EditGroup(a, sid, g, action, c)
    case Failure(e) => (Log(a, c), Fail(e))
    case Success(a') => (Log(a', c), Pass)
  }

  function DeleteVolumeFromStorageGroup(a: Array, sid: string, g: string, id: string): (out: (Array, Outcome<ArrayError>))
    ensures out.0 == a.(groups := out.0.groups, calls := a.calls + [RemoveFromGroupCall(sid, g, id)])
  {
    var c := RemoveFromGroupCall(sid, g, id);
    match Refusal(a, sid, c)
    case Some(k) => (Log(a, c), Fail(ArrayError(k, c)))
    case None =>
      if g !in a.groups || id !in a.groups[g] then (Log(a, c), Fail(ArrayError(NotFound, c)))
      else (Log(a.(groups := a.groups[g := a.groups[g] - {id}]), c), Pass)
  }

  /** Deleting a volume of group `g`: the volume must exist and belong to
      `g`; the array refuses to delete a volume still in any other group (an
      attached volume). It is then removed from the table, the listing and
      every group. */
  function DeleteVolume(a: Array, sid: string, g: string, id: string): (out: (Array, Outcome<ArrayError>))
  {
    var c := DeleteVolumeCall(sid, g, id);
    match Refusal(a, sid, c)
    case Some(k) => (Log(a, c), Fail(ArrayError(k, c)))
    case None =>
      if g !in a.groups || id !in a.table || id !in a.groups[g] then (Log(a, c), Fail(ArrayError(NotFound, c)))
      else if exists h | h in a.groups && h != g :: id in a.groups[h] then (Log(a, c), Fail(ArrayError(Conflict, c)))
      else
        var a' := a.(table := a.table - {id},
                     order := Without(a.order, id),
                     groups := map h | h in a.groups :: a.groups[h] - {id});
        (Log(a', c), Pass)
  }

  // ---------------------------------------------------------------------
  // The array's consistency is kept by every call
  // ---------------------------------------------------------------------

  /** The ID handed to the next created volume is not in use. */
  lemma {:induction false} NextIdIsFresh(a: Array)
    requires Wf(a)
    ensures Decimal.FormatInt(a.nextId) !in a.table
  {
    var id := Decimal.FormatInt(a.nextId);
    Decimal.FormatParseRoundTrip(a.nextId);
    assert !IssuedBefore(id, a.nextId);
  }

  lemma ExpandGroupPreservesWf(a: Array, g: string, x: ExpandParam)
    requires Wf(a) && g in a.groups
    ensures ExpandGroup(a, g, x).Success? ==> Wf(ExpandGroup(a, g, x).value)
  {
    if ExpandGroup(a, g, x).Success? {
      var a' := ExpandGroup(a, g, x).value;
      var id := Decimal.FormatInt(a.nextId);
      NextIdIsFresh(a);
      Decimal.FormatParseRoundTrip(a.nextId);
      assert id !in a.order;
      assert a'.order == a.order + [id];
      forall i, j | 0 <= i < j < |a'.order| ensures a'.order[i] != a'.order[j] {
        if j == |a.order| {
          assert a'.order[i] == a.order[i];
        }
      }
      forall v | v in a'.table
        ensures a'.table[v].volumeId == v && IssuedBefore(v, a'.nextId)
      {
        if v != id {
          assert IssuedBefore(v, a.nextId);
        }
      }
    }
  }

  lemma AddToGroupPreservesWf(a: Array, g: string, ids: seq<string>)
    requires Wf(a) && g in a.groups
    ensures AddToGroup(a, g, ids).Success? ==> Wf(AddToGroup(a, g, ids).value)
  {
  }

  lemma EditGroupPreservesWf(a: Array, sid: string, g: string, action: EditAction, c: Call)
    requires Wf(a)
    ensures EditGroup(a, sid, g, action, c).Success? ==> Wf(EditGroup(a, sid, g, action, c).value)
  {
    if g in a.groups && Refusal(a, sid, c).None? {
      match action
      case Expand(x) => ExpandGroupPreservesWf(a, g, x);
      case AddVolume(ids) => AddToGroupPreservesWf(a, g, ids);
    }
  }

  lemma DeleteVolumePreservesWf(a: Array, sid: string, g: string, id: string)
    requires Wf(a)
    ensures Wf(DeleteVolume(a, sid, g, id).0)
  {
    var d := DeleteVolume(a, sid, g, id).0;
    if DeleteVolume(a, sid, g, id).1.Pass? {
      assert d.table == a.table - {id};
      assert d.order == Without(a.order, id);
      forall v ensures v in d.table <==> v in d.order {
        assert v in a.table <==> v in a.order;
      }
    }
  }

  lemma LogPreservesWf(a: Array, c: Call)
    requires Wf(a)
    ensures Wf(Log(a, c))
  {
  }

  /** Every client call leaves a consistent array consistent, whether it
      succeeds or fails. */
  lemma CreateVolumePreservesWf(a: Array, sid: string, g: string, action: EditAction)
    requires Wf(a)
    ensures Wf(CreateVolume(a, sid, g, action).0)
  {
    var c := CreateVolumeCall(sid, g, action);
    EditGroupPreservesWf(a, sid, g, action, c);
    match EditGroup(a, sid, g, action, c)
    case Failure(_) => LogPreservesWf(a, c);
    case Success(a') => LogPreservesWf(a', c);
  }

  lemma EditStorageGroupPreservesWf(a: Array, sid: string, g: string, action: EditAction)
    requires Wf(a)
    ensures Wf(EditStorageGroup(a, sid, g, action).0)
  {
    var c := EditGroupCall(sid, g, action);
    EditGroupPreservesWf(a, sid, g, action, c);
    match EditGroup(a, sid, g, action, c)
    case Failure(_) => LogPreservesWf(a, c);
    case Success(a') => LogPreservesWf(a', c);
  }

  lemma RemoveFromGroupPreservesWf(a: Array, sid: string, g: string, id: string)
    requires Wf(a)
    ensures Wf(DeleteVolumeFromStorageGroup(a, sid, g, id).0)
  {
  }
}

=== FILE: vmax_executor.dfy ===
/** The VMAX storage executor: the local device map built from the entries
    of `/dev/disk/by-id`, and the host's instance ID built from the iSCSI
    initiator name. The directory listing (each entry with its resolved
    symlink target) and the lines of the initiator file are given as inputs;
    reading them is not modelled. */
module VmaxExecutor {
  import opened Wrappers
  import opened GoStrings

  const DriverName: string := "vmax"
  const InitiatorFile: string := "/etc/iscsi/initiatorname.iscsi"
  /** Length of the WWN keys of the device map. */
  const WwnLength: nat := 32

  /** The name filter `^<prefix>\w*$` and the text handed to
      `strings.Replace` to strip the prefix. */
  datatype NamePattern = NamePattern(prefix: string, strip: string)

  const WwnPattern: NamePattern := NamePattern("wwn-0x", "^wwn-0x")
  const DmNamePattern: NamePattern := NamePattern("dm-name-", "^dm-name-\\d+")

  function DeviceMapper(): bool { false }
  function Multipath(): bool { false }

  /** The device-mapper names are scanned when device-mapper or multipath
      is in use, the WWN names otherwise. */
  function SelectPattern(deviceMapper: bool, multipath: bool): (p: NamePattern)
    ensures p == DmNamePattern <==> deviceMapper || multipath
    ensures p == WwnPattern <==> !deviceMapper && !multipath
  {
    if deviceMapper || multipath then DmNamePattern else WwnPattern
  }

  /** Both switches are off, so only the WWN pattern is ever used. */
  lemma OnlyWwnPatternIsUsed()
    ensures SelectPattern(DeviceMapper(), Multipath()) == WwnPattern
  {
  }

  /** A directory entry: its name and the target its symlink resolves to;
      `None` when resolution fails, whose error is ignored and yields "". */
  datatype DirEntry = DirEntry(name: string, resolved: Option<string>)

  datatype ExecError =
    | IoError(msg: string)     // an error returned by the filesystem, unchanged
    | IndexOutOfRange          // a Go runtime panic on a slice or index
    | Errorf(msg: string)      // an error built with fmt.Errorf

  datatype LocalDevices = LocalDevices(driver: string, deviceMap: map<string, string>)

  datatype InstanceID = InstanceID(id: string, driver: string, metadata: string)

  // ---------------------------------------------------------------------
  // Local device map
  // ---------------------------------------------------------------------

  predicate IsWwnName(name: string) {
    MatchesPrefixWords(WwnPattern.prefix, name)
  }

  /** An entry that enters the device map. */
  predicate Contributes(e: DirEntry) {
    IsWwnName(e.name) && |e.name| >= WwnLength
  }

  /** The map key of an entry: the last 32 characters of its full name. */
  function KeyOf(e: DirEntry): (k: string)
    requires |e.name| >= WwnLength
    ensures |k| == WwnLength
  {
    e.name[|e.name| - WwnLength..]
  }

  function PathOf(e: DirEntry): string {
    e.resolved.GetOr("")
  }

  /** Some contributing entry among the first `n` has key `k`. */
  ghost predicate HasKey(es: seq<DirEntry>, n: nat, k: string)
    requires n <= |es|
  {
    exists j | 0 <= j < n :: Contributes(es[j]) && KeyOf(es[j]) == k
  }

  /** No contributing entry after `j` and before `n` has the key of entry `j`. */
  ghost predicate LastWithKey(es: seq<DirEntry>, n: nat, j: nat)
    requires j < n <= |es| && Contributes(es[j])
  {
    forall l | j < l < n :: !(Contributes(es[l]) && KeyOf(es[l]) == KeyOf(es[j]))
  }

  /** The device map's keys are exactly those of the contributing entries
      among the first `n`. */
  ghost predicate KeysMatch(es: seq<DirEntry>, n: nat, m: map<string, string>)
    requires n <= |es|
  {
    forall k :: k in m <==> HasKey(es, n, k)
  }

  /** Each key maps to the path of the last of the first `n` entries with
      that key. */
  ghost predicate LastWins(es: seq<DirEntry>, n: nat, m: map<string, string>)
    requires n <= |es|
  {
    forall j | 0 <= j < n && Contributes(es[j]) && LastWithKey(es, n, j) ::
      KeyOf(es[j]) in m && m[KeyOf(es[j])] == PathOf(es[j])
  }

  /** What the device map holds after the first `n` entries: exactly the
      keys of the contributing entries, each mapped to the path of the last
      entry with that key. */
  ghost predicate Scanned(es: seq<DirEntry>, n: nat, m: map<string, string>)
    requires n <= |es|
  {
    KeysMatch(es, n, m) && LastWins(es, n, m)
  }

  lemma {:induction false} KeysAfterAdd(es: seq<DirEntry>, n: nat, m: map<string, string>)
    requires n < |es| && Contributes(es[n]) && KeysMatch(es, n, m)
    ensures KeysMatch(es, n + 1, m[KeyOf(es[n]) := PathOf(es[n])])
  {
    var m' := m[KeyOf(es[n]) := PathOf(es[n])];
    forall k | k in m' ensures HasKey(es, n + 1, k) {
      AddedKeyIsListed(es, n, m, k);
    }
    forall k | HasKey(es, n + 1, k) ensures k in m' {
      ListedKeyIsAdded(es, n, m, k);
    }
  }

  lemma {:induction false} AddedKeyIsListed(es: seq<DirEntry>, n: nat, m: map<string, string>, k: string)
    requires n < |es| && Contributes(es[n]) && KeysMatch(es, n, m)
    requires k in m || k == KeyOf(es[n])
    ensures HasKey(es, n + 1, k)
  {
    if k == KeyOf(es[n]) {
      assert Contributes(es[n]) && KeyOf(es[n]) == k;
    } else {
      assert HasKey(es, n, k);
      var j :| 0 <= j < n && Contributes(es[j]) && KeyOf(es[j]) == k;
      assert 0 <= j < n + 1;
    }
  }

  lemma {:induction false} ListedKeyIsAdded(es: seq<DirEntry>, n: nat, m: map<string, string>, k: string)
    requires n < |es| && Contributes(es[n]) && KeysMatch(es, n, m)
    requires HasKey(es, n + 1, k)
    ensures k in m || k == KeyOf(es[n])
  {
    var j :| 0 <= j < n + 1 && Contributes(es[j]) && KeyOf(es[j]) == k;
    if j < n {
      assert HasKey(es, n, k);
    }
  }

  lemma {:induction false} KeysAfterSkip(es: seq<DirEntry>, n: nat, m: map<string, string>)
    requires n < |es| && !Contributes(es[n]) && KeysMatch(es, n, m)
    ensures KeysMatch(es, n + 1, m)
  {
    forall k | k in m ensures HasKey(es, n + 1, k) {
      assert HasKey(es, n, k);
      var j :| 0 <= j < n && Contributes(es[j]) && KeyOf(es[j]) == k;
      assert 0 <= j < n + 1;
    }
    forall k | HasKey(es, n + 1, k) ensures k in m {
      var j :| 0 <= j < n + 1 && Contributes(es[j]) && KeyOf(es[j]) == k;
      assert j < n;
      assert HasKey(es, n, k);
    }
  }

  lemma {:induction false} LastAfterAdd(es: seq<DirEntry>, n: nat, m: map<string, string>)
    requires n < |es| && Contributes(es[n]) && LastWins(es, n, m)
    ensures LastWins(es, n + 1, m[KeyOf(es[n]) := PathOf(es[n])])
  {
    var key := KeyOf(es[n]);
    var m' := m[key := PathOf(es[n])];
    forall j | 0 <= j < n + 1 && Contributes(es[j]) && LastWithKey(es, n + 1, j)
      ensures KeyOf(es[j]) in m' && m'[KeyOf(es[j])] == PathOf(es[j])
    {
      if j < n {
        assert KeyOf(es[j]) != key;
        assert LastWithKey(es, n, j);
      }
    }
  }

  lemma {:induction false} LastAfterSkip(es: seq<DirEntry>, n: nat, m: map<string, string>)
    requires n < |es| && !Contributes(es[n]) && LastWins(es, n, m)
    ensures LastWins(es, n + 1, m)
  {
    forall j | 0 <= j < n + 1 && Contributes(es[j]) && LastWithKey(es, n + 1, j)
      ensures KeyOf(es[j]) in m && m[KeyOf(es[j])] == PathOf(es[j])
    {
      assert j < n;
      assert LastWithKey(es, n, j);
    }
  }

  /** The literal text "^wwn-0x" never occurs in a WWN entry name (no such
      name contains '^'), so the strip leaves the name unchanged. */
  lemma {:induction false} StripIsNoOp(name: string)
    requires IsWwnName(name)
    ensures ReplaceFirst(name, WwnPattern.strip, "") == name
  {
    forall i | 0 <= i < |name| ensures name[i] != '^' {
      if i < |WwnPattern.prefix| {
        assert name[i] == name[..|WwnPattern.prefix|][i] == WwnPattern.prefix[i];
      } else {
        assert IsWordChar(name[i]);
      }
    }
  }

  /** No WWN entry among the first `n` is too short to slice. */
  predicate NoShortWwn(es: seq<DirEntry>, n: nat)
    requires n <= |es|
  {
    forall j | 0 <= j < n :: IsWwnName(es[j].name) ==> |es[j].name| >= WwnLength
  }

  /** The device map after the first `n` entries, one entry at a time. */
  function BuildMap(es: seq<DirEntry>, n: nat): map<string, string>
    requires n <= |es| && NoShortWwn(es, n)
  {
    if n == 0 then map[]
    else
      var m := BuildMap(es, n - 1);
      if Contributes(es[n - 1]) then m[KeyOf(es[n - 1]) := PathOf(es[n - 1])] else m
  }

  lemma {:induction false} BuildMapIsScanned(es: seq<DirEntry>, n: nat)
    requires n <= |es| && NoShortWwn(es, n)
    ensures Scanned(es, n, BuildMap(es, n))
  {
    if n > 0 {
      BuildMapIsScanned(es, n - 1);
      var m := BuildMap(es, n - 1);
      if Contributes(es[n - 1]) {
        KeysAfterAdd(es, n - 1, m);
        LastAfterAdd(es, n - 1, m);
      } else {
        KeysAfterSkip(es, n - 1, m);
        LastAfterSkip(es, n - 1, m);
      }
    }
  }

  /** One entry's effect on the map being built. */
  lemma EntryStep(es: seq<DirEntry>, n: nat)
    requires n < |es| && NoShortWwn(es, n)
    requires IsWwnName(es[n].name) ==> |es[n].name| >= WwnLength
    ensures NoShortWwn(es, n + 1)
    ensures Contributes(es[n]) ==> BuildMap(es, n + 1) == BuildMap(es, n)[KeyOf(es[n]) := PathOf(es[n])]
    ensures !Contributes(es[n]) ==> BuildMap(es, n + 1) == BuildMap(es, n)
  {
  }

  /** The key computed for a matching entry name: `strip` is removed with
      `strings.Replace`, which for the WWN pattern changes nothing, then the
      last 32 characters are sliced off, which panics on a shorter name. */
  function StripAndSlice(name: string, strip: string): (r: Result<string, ExecError>)
    requires IsWwnName(name) && strip == WwnPattern.strip
    ensures r.Failure? <==> |name| < WwnLength
    ensures r.Success? ==> r.value == name[|name| - WwnLength..]
  {
    StripIsNoOp(name);
    var naaName := ReplaceFirst(name, strip, "");
    if |naaName| < WwnLength then Failure(IndexOutOfRange)
    else Success(naaName[|naaName| - WwnLength..])
  }

  /** The loop of `getLocalWWNDeviceByID` over the directory entries: it
      panics on the first WWN entry too short to slice, and otherwise builds
      the map entry by entry. */
  method ScanEntries(files: seq<DirEntry>) returns (r: Result<map<string, string>, ExecError>)
    ensures r.Failure? <==> !NoShortWwn(files, |files|)
    ensures r.Failure? ==> r.error == IndexOutOfRange
    ensures r.Success? ==> NoShortWwn(files, |files|) && r.value == BuildMap(files, |files|)
    ensures r.Success? ==> Scanned(files, |files|, r.value)
  {
    var pattern := SelectPattern(DeviceMapper(), Multipath());
    OnlyWwnPatternIsUsed();
    var deviceMap: map<string, string> := map[];
    var i := 0;
    while i < |files|
      invariant 0 <= i <= |files|
      invariant NoShortWwn(files, i)
      invariant deviceMap == BuildMap(files, i)
    {
      var f := files[i];
      if MatchesPrefixWords(pattern.prefix, f.name) {
        var naaName := StripAndSlice(f.name, pattern.strip);
        if naaName.Failure? {
          return Failure(IndexOutOfRange);
        }
        EntryStep(files, i);
        deviceMap := deviceMap[naaName.value := PathOf(f)];
      } else {
        EntryStep(files, i);
      }
      i := i + 1;
    }
    BuildMapIsScanned(files, |files|);
    return Success(deviceMap);
  }

  /** `getLocalWWNDeviceByID`: a failed directory read returns its error and
      no map. Otherwise every WWN entry (`wwn-0x` then word characters only)
      is keyed by the last 32 characters of its name and mapped to its
      resolved path, a later entry overwriting an earlier one with the same
      key; all other entries are ignored. A WWN entry shorter than 32
      characters makes the slice panic, and no map is returned. */
  method LocalWwnDevices(dir: Result<seq<DirEntry>, string>) returns (r: Result<map<string, string>, ExecError>)
    ensures dir.Failure? ==> r == Failure(IoError(dir.error))
    ensures dir.Success? ==>
              (r.Failure? <==> exists j | 0 <= j < |dir.value| :: IsWwnName(dir.value[j].name) && |dir.value[j].name| < WwnLength)
    ensures dir.Success? && r.Failure? ==> r.error == IndexOutOfRange
    ensures r.Success? ==> dir.Success? && forall k | k in r.value :: |k| == WwnLength
    ensures r.Success? ==> Scanned(dir.value, |dir.value|, r.value)
  {
    if dir.Failure? {
      return Failure(IoError(dir.error));
    }
    r := ScanEntries(dir.value);
    if r.Success? {
      BuildMapIsScanned(dir.value, |dir.value|);
      ScannedKeysHaveWwnLength(dir.value, |dir.value|, r.value);
    }
  }

  lemma ScannedKeysHaveWwnLength(es: seq<DirEntry>, n: nat, m: map<string, string>)
    requires n <= |es| && KeysMatch(es, n, m)
    ensures forall k | k in m :: |k| == WwnLength
  {
    forall k | k in m ensures |k| == WwnLength {
      assert HasKey(es, n, k);
    }
  }

  /** `LocalDevices`: the device map labelled with the driver name; scan
      failures are returned unchanged. */
  method GetLocalDevices(dir: Result<seq<DirEntry>, string>) returns (r: Result<LocalDevices, ExecError>)
    ensures dir.Failure? ==> r == Failure(IoError(dir.error))
    ensures dir.Success? ==>
              (r.Failure? <==> exists j | 0 <= j < |dir.value| :: IsWwnName(dir.value[j].name) && |dir.value[j].name| < WwnLength)
    ensures dir.Success? && r.Failure? ==> r.error == IndexOutOfRange
    ensures r.Success? ==> r.value.driver == DriverName
    ensures r.Success? ==> forall k | k in r.value.deviceMap :: |k| == WwnLength
    ensures r.Success? ==> Scanned(dir.value, |dir.value|, r.value.deviceMap)
  {
    var devices := LocalWwnDevices(dir);
    assert devices.Success? ==> dir.Success?;
    match devices
    case Failure(e) => return Failure(e);
    case Success(m) => return Success(LocalDevices(DriverName, m));
  }

  // ---------------------------------------------------------------------
  // Initiator name and instance ID
  // ---------------------------------------------------------------------

  /** The last line scanned, "" for an empty file. */
  function LastLine(lines: seq<string>): string {
    if |lines| == 0 then "" else lines[|lines| - 1]
  }

  /** `getiSCSIinitName` after the file is read: field 1 of the last line
      split on '=', i.e. the text between the first '=' and the next '=' (or
      the end of the line). A last line without '=' makes the index panic;
      an empty name is an error. */
  function InitiatorName(lines: seq<string>): (r: Result<string, ExecError>)
    ensures (r.Failure? && r.error == IndexOutOfRange) <==> '=' !in LastLine(lines)
    ensures r.Success? ==> r.value != "" && '=' !in r.value
    ensures '=' in LastLine(lines) ==> (r.Success? <==> Split(LastLine(lines), '=')[1] != "")
    ensures r.Success? ==> r.value == Split(LastLine(lines), '=')[1]
    ensures r.Failure? && r.error != IndexOutOfRange ==> r.error == Errorf("error reading " + InitiatorFile)
    ensures r.Success? ==>
              var last := LastLine(lines);
              var i := IndexOf(last, '=');
              var tail := last[i + 1..];
              r.value == (if '=' in tail then tail[..IndexOf(tail, '=')] else tail)
  {
    var lastLine := LastLine(lines);
    var fields := Split(lastLine, '=');
    if |fields| < 2 then Failure(IndexOutOfRange)
    else if fields[1] == "" then Failure(Errorf("error reading " + InitiatorFile))
    else
      SecondField(lastLine, '=');
      Success(fields[1])
  }

  /** Reading back an `InitiatorName=<name>` line: whatever came before, a
      last line `<key>=<name>` yields exactly `<name>` when neither part
      contains '=' and the name is not empty. */
  lemma {:induction false} InitiatorLineRoundTrip(earlier: seq<string>, key: string, name: string)
    requires '=' !in key && '=' !in name && name != ""
    ensures InitiatorName(earlier + [key + "=" + name]) == Success(name)
  {
    var line := key + "=" + name;
    assert LastLine(earlier + [line]) == line;
    assert line[|key|] == '=';
    assert line[..|key|] == key;
    IndexOfFirst(line, '=', |key|);
    assert line[|key| + 1..] == name;
    SecondField(line, '=');
  }

  /** The first occurrence is at `i` when `c` is at `i` and not before it. */
  lemma {:induction false} IndexOfFirst(s: string, c: char, i: nat)
    requires i < |s| && s[i] == c && c !in s[..i]
    ensures IndexOf(s, c) == i
    decreases i
  {
    if i > 0 {
      assert s[0] != c by { assert s[0] == s[..i][0]; }
      assert s[1..][..i - 1] == s[..i][1..];
      IndexOfFirst(s[1..], c, i - 1);
    }
  }

  /** `GetInstanceID` after the file is opened or not: an open failure and
      every initiator-name error are returned; otherwise the ID is labelled
      with the driver name and carries the initiator name as metadata. */
  function GetInstanceID(file: Result<seq<string>, string>): (r: Result<InstanceID, ExecError>)
    ensures file.Failure? ==> r == Failure(Errorf("error reading " + InitiatorFile + " " + file.error))
    ensures file.Success? && InitiatorName(file.value).Failure? ==> r == Failure(InitiatorName(file.value).error)
    ensures file.Success? && InitiatorName(file.value).Success? ==>
              r == Success(InstanceID("", DriverName, InitiatorName(file.value).value))
    ensures r.Success? ==>
              && file.Success?
              && r.value.driver == DriverName
              && r.value.id == ""
              && r.value.metadata != ""
              && '=' !in r.value.metadata
              && InitiatorName(file.value) == Success(r.value.metadata)
  {
    match file
    case Failure(e) => Failure(Errorf("error reading " + InitiatorFile + " " + e))
    case Success(lines) =>
      match InitiatorName(lines)
      case Failure(e) => Failure(e)
      case Success(name) => Success(InstanceID("", DriverName, name))
  }
}

=== FILE: vmax_storage.dfy ===
/** The VMAX storage driver: volume listing, inspection, creation and
    removal, and attachment by moving a volume between two fixed storage
    groups, all over the abstract array of `VmaxArray`. Every operation takes
    the array state and returns the next one together with its result. */
module VmaxStorage {
  import opened Wrappers
  import opened VmaxArray
  import Decimal

  /** The pool of detached volumes, where new volumes are created. */
  const DetachedGroup: string := "EMCDOJO"
  /** The pool of attached volumes. */
  const AttachedGroup: string := "CloudFoundry"

  const ProviderKey: string := "provider"
  const ProviderName: string := "scaleIO"

  /** The driver's configuration: the ID of the array it manages. */
  datatype Driver = Driver(systemId: string)

  /** The generic volume returned to callers. */
  datatype Volume = Volume(
    name: string,
    id: string,
    status: string,
    volType: string,
    size: int,
    availabilityZone: string)

  /** Optional creation parameters; `None` is a nil pointer. */
  datatype VolumeCreateOpts = VolumeCreateOpts(
    availabilityZone: Option<string>,
    volType: Option<string>,
    size: Option<int>)

  /** Error context fields; values are kept as text. */
  type Fields = map<string, string>

  /** The errors the driver returns: a client error as is, or wrapped by
      `goof.New`, `goof.WithFieldsE`, `goof.WithError`, or flattened to text
      by `fmt.Errorf`. */
  datatype Error =
    | Client(err: ArrayError)
    | New(msg: string)
    | WithFieldsE(fields: Fields, msg: string, cause: Error)
    | WithError(msg: string, cause: Error)
    | Errorf(msg: string, cause: Error)

  /** The array-side classification a caller can still recover from an
      error: goof wrappers keep their cause, `fmt.Errorf` keeps only text. */
  function ErrorKind(e: Error): Option<Kind> {
    match e
    case Client(ae) => Some(ae.kind)
    case New(_) => None
    case WithFieldsE(_, _, cause) => ErrorKind(cause)
    case WithError(_, cause) => ErrorKind(cause)
    case Errorf(_, _) => None
  }

  // ---------------------------------------------------------------------
  // Helpers
  // ---------------------------------------------------------------------

  /** `eff`: the caller's fields plus the provider entry, which the caller
      may override; a nil map gives the provider entry alone. */
  function Eff(fields: Option<Fields>): (r: Fields)
    ensures ProviderKey in r
    ensures fields.None? ==> r == map[ProviderKey := ProviderName]
    ensures fields.Some? ==> r.Keys == fields.value.Keys + {ProviderKey}
    ensures fields.Some? ==> forall k | k in fields.value :: r[k] == fields.value[k]
    ensures (fields.None? || ProviderKey !in fields.value) ==> r[ProviderKey] == ProviderName
  {
    var errFields := map[ProviderKey := ProviderName];
    match fields
    case None => errFields
    case Some(m) => errFields + m
  }

  /** The context attached to volume-level errors. */
  function VolumeFields(volumeId: string): (r: Fields)
    ensures r.Keys == {"volumeId", ProviderKey}
    ensures r["volumeId"] == volumeId && r[ProviderKey] == ProviderName
  {
    Eff(Some(map["volumeId" := volumeId]))
  }

  /** `thinOrThick`: the configured provisioning mode, "ThinProvisioned"
      when none is configured. It is never passed to the array. */
  function ThinOrThick(configured: string): (r: string)
    ensures r != ""
    ensures configured != "" ==> r == configured
    ensures configured == "" ==> r == "ThinProvisioned"
  {
    if configured == "" then "ThinProvisioned" else configured
  }

  /** The volume a listing reports for the entry `id` and its fetched
      record. */
  function ListedVolume(id: string, rec: VolumeRecord): Volume {
    Volume(rec.volumeIdentifier, id, "", rec.volType, rec.capGb, "")
  }

  /** The volume an inspection reports for a fetched record: the listing
      mapping, with the ID the record itself carries. */
  function InspectedVolume(rec: VolumeRecord): Volume {
    ListedVolume(rec.volumeId, rec)
  }

  /** Group membership after moving `id` from group `src` to group `dst`. */
  function Moved(groups: map<string, set<string>>, id: string, src: string, dst: string): map<string, set<string>>
    requires src in groups && dst in groups
  {
    groups[src := groups[src] - {id}][dst := groups[dst] + {id}]
  }

  /** No volume other than `id` changes membership in any group, and no
      group appears or disappears. */
  ghost predicate OthersUnchanged(before: map<string, set<string>>, after: map<string, set<string>>, id: string) {
    && before.Keys == after.Keys
    && forall g, v | g in before && v != id :: v in before[g] <==> v in after[g]
  }

  // ---------------------------------------------------------------------
  // Volumes
  // ---------------------------------------------------------------------

  /** Every listed ID before position `k` can be fetched. */
  ghost predicate FetchableUpTo(a: Array, sid: string, ids: seq<string>, k: nat)
    requires k <= |ids|
  {
    forall j | 0 <= j < k :: GetVolumeResponse(a, sid, ids[j]).Success?
  }

  function GetCalls(sid: string, ids: seq<string>): (cs: seq<Call>)
    ensures |cs| == |ids|
    ensures forall j | 0 <= j < |ids| :: cs[j] == GetVolumeCall(sid, ids[j])
  {
    seq(|ids|, j requires 0 <= j < |ids| => GetVolumeCall(sid, ids[j]))
  }

  /** `Volumes`: list the array's volume IDs, then fetch each in turn. The
      result has one volume per listed ID, in listing order, named by the
      listed ID; any failure gives an empty list and that failure, never a
      partial list. Nothing but the call log changes. */
  method Volumes(d: Driver, a: Array) returns (a': Array, volumes: seq<Volume>, err: Option<Error>)
    ensures |a'.calls| > |a.calls| && a'.calls[..|a.calls|] == a.calls && a' == a.(calls := a'.calls)
    ensures err.Some? ==> volumes == []
    ensures ListVolumesResponse(a, d.systemId).Failure? ==>
              && err == Some(Client(ListVolumesResponse(a, d.systemId).error))
              && a'.calls == a.calls + [ListVolumesCall(d.systemId)]
    ensures ListVolumesResponse(a, d.systemId).Success? ==>
              var ids := ListVolumesResponse(a, d.systemId).value;
              && (err.None? <==> FetchableUpTo(a, d.systemId, ids, |ids|))
              && (err.None? ==>
                    && |volumes| == |ids|
                    && (forall j | 0 <= j < |ids| ::
                          volumes[j] == ListedVolume(ids[j], GetVolumeResponse(a, d.systemId, ids[j]).value))
                    && a'.calls == a.calls + [ListVolumesCall(d.systemId)] + GetCalls(d.systemId, ids))
              && (err.Some? ==>
                    exists k | 0 <= k < |ids| ::
                      && FetchableUpTo(a, d.systemId, ids, k)
                      && GetVolumeResponse(a, d.systemId, ids[k]).Failure?
                      && err == Some(Client(GetVolumeResponse(a, d.systemId, ids[k]).error))
                      && a'.calls == a.calls + [ListVolumesCall(d.systemId)] + GetCalls(d.systemId, ids[..k + 1]))
  {
    var listed;
    a', listed := ListVolumes(a, d.systemId).0, ListVolumes(a, d.systemId).1;
    if listed.Failure? {
      return a', [], Some(Client(listed.error));
    }
    var ids := listed.value;
    var acc: seq<Volume> := [];
    var i := 0;
    while i < |ids|
      invariant 0 <= i <= |ids|
      invariant a' == a.(calls := a.calls + [ListVolumesCall(d.systemId)] + GetCalls(d.systemId, ids[..i]))
      invariant FetchableUpTo(a, d.systemId, ids, i)
      invariant |acc| == i
      invariant forall j | 0 <= j < i ::
                  acc[j] == ListedVolume(ids[j], GetVolumeResponse(a, d.systemId, ids[j]).value)
    {
      var fetched := GetVolumeResponse(a', d.systemId, ids[i]);
      assert fetched == GetVolumeResponse(a, d.systemId, ids[i]);
      assert GetCalls(d.systemId, ids[..i + 1]) == GetCalls(d.systemId, ids[..i]) + [GetVolumeCall(d.systemId, ids[i])];
      a' := GetVolume(a', d.systemId, ids[i]).0;
      if fetched.Failure? {
        return a', [], Some(Client(fetched.error));
      }
      acc := acc + [ListedVolume(ids[i], fetched.value)];
      i := i + 1;
    }
    assert ids[..i] == ids;
    return a', acc, None;
  }

  // ---------------------------------------------------------------------
  // VolumeInspect
  // ---------------------------------------------------------------------

  /** `VolumeInspect`: an empty ID fails at once without calling the array;
      otherwise one fetch, whose error is returned unchanged and whose record
      is mapped field by field. */
  function VolumeInspect(d: Driver, a: Array, volumeId: string): (out: (Array, Result<Volume, Error>))
    ensures volumeId == "" ==> out == (a, Failure(New("no volumeID specified")))
    ensures volumeId != "" ==> out.0 == Log(a, GetVolumeCall(d.systemId, volumeId))
    ensures volumeId != "" && GetVolumeResponse(a, d.systemId, volumeId).Failure? ==>
              out.1 == Failure(Client(GetVolumeResponse(a, d.systemId, volumeId).error))
    ensures out.1.Success? <==> volumeId != "" && GetVolumeResponse(a, d.systemId, volumeId).Success?
    ensures out.1.Success? ==>
              var rec := a.table[volumeId];
              && out.1.value.name == rec.volumeIdentifier
              && out.1.value.id == rec.volumeId
              && out.1.value.status == ""
              && out.1.value.volType == rec.volType
              && out.1.value.size == rec.capGb
              && out.1.value.availabilityZone == ""
  {
    if volumeId == "" then (a, Failure(New("no volumeID specified")))
    else
      var (a', fetched) := GetVolume(a, d.systemId, volumeId);
      match fetched
      case Failure(e) => (a', Failure(Client(e)))
      case Success(rec) =>
        (a', Success(InspectedVolume(rec)))
  }

  // ---------------------------------------------------------------------
  // VolumeCreate
  // ---------------------------------------------------------------------

  /** The single-volume create request for a size in GB; its size text is
      the canonical base-10 rendering of the size, which parses back to
      exactly that size. */
  function CreateRequest(size: int): (p: EditAction)
    ensures p.Expand?
    ensures p.expand.numOfVols == 1
    ensures p.expand.createNewVolumes
    ensures p.expand.emulation == "FBA"
    ensures p.expand.volumeAttribute.capacityUnit == "GB"
    ensures p.expand.volumeAttribute.volumeSize == Decimal.FormatInt(size)
    ensures Decimal.ParseInt(p.expand.volumeAttribute.volumeSize) == Some(size)
  {
    Decimal.FormatParseRoundTrip(size);
    Expand(ExpandParam(1, VolumeAttribute("GB", Decimal.FormatInt(size)), true, "FBA"))
  }

  /** `VolumeCreate`: copy the provided options (absent ones stay at their
      zero values, a missing size becomes 0), make one create call against
      the detached group, and return the volume built from the options
      without reading it back. The volume name is neither sent nor
      returned. */
  function VolumeCreate(d: Driver, a: Array, volumeName: string, opts: VolumeCreateOpts): (out: (Array, Result<Volume, Error>))
    ensures var size := if opts.size.Some? then opts.size.value else 0;
            out.0.calls == a.calls + [CreateVolumeCall(d.systemId, DetachedGroup, CreateRequest(size))]
    ensures out.1.Success? <==> CreateVolume(a, d.systemId, DetachedGroup, CreateRequest(opts.size.GetOr(0))).1.Pass?
    ensures out.1.Success? ==>
              && out.1.value.name == "" && out.1.value.id == "" && out.1.value.status == ""
              && (opts.availabilityZone.Some? ==> out.1.value.availabilityZone == opts.availabilityZone.value)
              && (opts.availabilityZone.None? ==> out.1.value.availabilityZone == "")
              && (opts.volType.Some? ==> out.1.value.volType == opts.volType.value)
              && (opts.volType.None? ==> out.1.value.volType == "")
              && (opts.size.Some? ==> out.1.value.size == opts.size.value)
              && (opts.size.None? ==> out.1.value.size == 0)
    ensures out.1.Failure? ==>
              && ErrorKind(out.1.error) == None
              && out.0 == a.(calls := out.0.calls)
  {
    var volume := Volume("", "", "", opts.volType.GetOr(""), opts.size.GetOr(0), opts.availabilityZone.GetOr(""));
    var (a', created) := CreateVolume(a, d.systemId, DetachedGroup, CreateRequest(volume.size));
    match created
    case Fail(e) => (a', Failure(Errorf("unable to create volume", Client(e))))
    case Pass => (a', Success(volume))
  }

  // ---------------------------------------------------------------------
  // VolumeRemove
  // ---------------------------------------------------------------------

  /** `VolumeRemove`: one delete call; on success the volume is gone from
      the table and from every group, on failure nothing but the log changes
      and the error carries the volume ID and keeps its classification. */
  function VolumeRemove(d: Driver, a: Array, volumeId: string): (out: (Array, Outcome<Error>))
    ensures out.0.calls == a.calls + [DeleteVolumeCall(d.systemId, DetachedGroup, volumeId)]
    ensures out.1.Pass? ==>
              && volumeId in a.table
              && out.0.table == a.table - {volumeId}
              && out.0.groups.Keys == a.groups.Keys
              && (forall g | g in a.groups :: out.0.groups[g] == a.groups[g] - {volumeId})
              && (forall v :: v in out.0.order <==> v in a.order && v != volumeId)
              && out.0 == a.(table := out.0.table, order := out.0.order, groups := out.0.groups, calls := out.0.calls)
    ensures out.1.Fail? ==>
              && out.0 == a.(calls := out.0.calls)
              && out.1.error.WithFieldsE?
              && out.1.error.fields == VolumeFields(volumeId)
              && DeleteVolume(a, d.systemId, DetachedGroup, volumeId).1.Fail?
              && ErrorKind(out.1.error) == Some(DeleteVolume(a, d.systemId, DetachedGroup, volumeId).1.error.kind)
    ensures volumeId !in a.table ==> out.1.Fail?
    ensures out.1.Pass? ==>
              && DetachedGroup in a.groups && volumeId in a.groups[DetachedGroup]
              && forall g | g in a.groups && g != DetachedGroup :: volumeId !in a.groups[g]
  {
    var (a', deleted) := DeleteVolume(a, d.systemId, DetachedGroup, volumeId);
    match deleted
    case Fail(e) => (a', Fail(WithFieldsE(VolumeFields(volumeId), "error removing volume", Client(e))))
    case Pass => (a', Pass)
  }

  // ---------------------------------------------------------------------
  // VolumeAttach / VolumeDetach
  // ---------------------------------------------------------------------

  /** Moves `volumeId` from group `src` to group `dst`: remove first, add
      only when the removal succeeded, then inspect. Any failure stops the
      sequence and nothing is rolled back. The error messages name the
      group involved; every error carries the volume ID as context. */
  function MoveVolume(d: Driver, a: Array, volumeId: string, src: string, dst: string): (out: (Array, Result<Volume, Error>))
    ensures |out.0.calls| > |a.calls| && out.0.calls[|a.calls|] == RemoveFromGroupCall(d.systemId, src, volumeId)
    ensures out.0.table == a.table && out.0.order == a.order && out.0.nextId == a.nextId
    ensures out.1.Failure? ==> out.1.error.WithFieldsE? || out.1.error.WithError?
  {
    var fields := VolumeFields(volumeId);
    var (a1, removed) := DeleteVolumeFromStorageGroup(a, d.systemId, src, volumeId);
    match removed
    case Fail(e) => (a1, Failure(WithFieldsE(fields, "error removing volume from " + src + " SG", Client(e))))
    case Pass =>
      var (a2, added) := EditStorageGroup(a1, d.systemId, dst, AddVolume([volumeId]));
      match added
      case Fail(e) => (a2, Failure(WithFieldsE(fields, "error adding volume to " + dst + " SG", Client(e))))
      case Pass =>
        var (a3, inspected) := VolumeInspect(d, a2, volumeId);
        match inspected
        case Failure(e) => (a3, Failure(WithError("error getting volume after adding to " + dst + " SG", e)))
        case Success(v) => (a3, Success(v))
  }

  /** What moving `volumeId` from `src` to `dst` guarantees, whatever its
      outcome: the removal is the first call; the volume table is untouched;
      no other volume changes membership; a refused removal ends the
      operation at once (no add is attempted) with the group membership
      unchanged and the removal's classification; a refused add ends it
      after the removal and the add, with the volume out of `src`, `dst`
      unchanged and the add's classification (nothing is rolled back); a
      failed re-inspection leaves the volume moved and keeps the fetch's
      classification; the move succeeds exactly when the removal, the add
      and the fetch all succeed; success means the volume was in `src` and not in
      `dst`, is now in `dst` and not in `src`, after exactly a removal, an
      add and a fetch. */
  ghost predicate MovedAsSpecified(d: Driver, a: Array, volumeId: string, src: string, dst: string,
                                   out: (Array, Result<Volume, Error>))
  {
    && MoveFrame(d, a, volumeId, src, out.0)
    && MoveStopsOnRefusedRemoval(d, a, volumeId, src, out)
    && MoveKeepsRefusedAdd(d, a, volumeId, src, dst, out)
    && MoveKeepsFailedInspect(d, a, volumeId, src, dst, out)
    && MoveOnSuccess(d, a, volumeId, src, dst, out)
    && MoveSucceedsWhenAllPass(d, a, volumeId, src, dst, out)
  }

  /** The removal is the first call, and only group membership of
      `volumeId` and the log change. */
  ghost predicate MoveFrame(d: Driver, a: Array, volumeId: string, src: string, a': Array) {
    && |a'.calls| > |a.calls|
    && a'.calls[..|a.calls|] == a.calls
    && a'.calls[|a.calls|] == RemoveFromGroupCall(d.systemId, src, volumeId)
    && a' == a.(groups := a'.groups, calls := a'.calls)
    && OthersUnchanged(a.groups, a'.groups, volumeId)
  }

  /** A refused removal ends the move: no other call, membership unchanged,
      and the error carries the volume ID and keeps the removal's
      classification. */
  ghost predicate MoveStopsOnRefusedRemoval(d: Driver, a: Array, volumeId: string, src: string,
                                            out: (Array, Result<Volume, Error>))
  {
    var removal := DeleteVolumeFromStorageGroup(a, d.systemId, src, volumeId);
    removal.1.Fail? ==>
      && out.0 == Log(a, RemoveFromGroupCall(d.systemId, src, volumeId))
      && out.1.Failure?
      && out.1.error.WithFieldsE? && out.1.error.fields == VolumeFields(volumeId)
      && ErrorKind(out.1.error) == Some(removal.1.error.kind)
  }

  /** A refused add after a successful removal ends the move with no
      fetch: the volume stays out of `src` (nothing is rolled back), `dst` is
      as it was, and the error carries the volume ID and keeps the add's
      classification. */
  ghost predicate MoveKeepsRefusedAdd(d: Driver, a: Array, volumeId: string, src: string, dst: string,
                                      out: (Array, Result<Volume, Error>))
  {
    var removal := DeleteVolumeFromStorageGroup(a, d.systemId, src, volumeId);
    var add := EditStorageGroup(removal.0, d.systemId, dst, AddVolume([volumeId]));
    removal.1.Pass? && add.1.Fail? ==>
      && out.0.groups == a.groups[src := a.groups[src] - {volumeId}]
      && out.0.calls == a.calls + [RemoveFromGroupCall(d.systemId, src, volumeId),
                                   EditGroupCall(d.systemId, dst, AddVolume([volumeId]))]
      && out.1.Failure?
      && out.1.error.WithFieldsE? && out.1.error.fields == VolumeFields(volumeId)
      && ErrorKind(out.1.error) == Some(add.1.error.kind)
  }

  /** A failed re-inspection after a successful removal and add fails the
      move, but the volume stays moved: it is in `dst` and not in `src`. The
      fetch is made unless the ID is empty, and its classification is
      kept. */
  ghost predicate MoveKeepsFailedInspect(d: Driver, a: Array, volumeId: string, src: string, dst: string,
                                         out: (Array, Result<Volume, Error>))
  {
    var removal := DeleteVolumeFromStorageGroup(a, d.systemId, src, volumeId);
    var add := EditStorageGroup(removal.0, d.systemId, dst, AddVolume([volumeId]));
    && removal.1.Pass? && add.1.Pass?
    && (volumeId == "" || GetVolumeResponse(a, d.systemId, volumeId).Failure?)
    ==>
      && src in a.groups && dst in a.groups
      && out.0.groups == Moved(a.groups, volumeId, src, dst)
      && out.0.calls == a.calls + [RemoveFromGroupCall(d.systemId, src, volumeId),
                                   EditGroupCall(d.systemId, dst, AddVolume([volumeId]))]
                                + (if volumeId == "" then [] else [GetVolumeCall(d.systemId, volumeId)])
      && out.1.Failure?
      && out.1.error.WithError?
      && (volumeId != "" ==> ErrorKind(out.1.error) == Some(GetVolumeResponse(a, d.systemId, volumeId).error.kind))
  }

  /** A successful move found the volume in `src` and not in `dst`, and
      leaves it in `dst` and not in `src`, after exactly a removal, an add
      and a fetch; the volume returned is the one that fetch reads. */
  ghost predicate MoveOnSuccess(d: Driver, a: Array, volumeId: string, src: string, dst: string,
                                out: (Array, Result<Volume, Error>))
  {
    out.1.Success? ==>
      && src in a.groups && dst in a.groups
      && volumeId in a.groups[src] && volumeId !in a.groups[dst]
      && out.0.groups == Moved(a.groups, volumeId, src, dst)
      && out.0.calls == a.calls + [RemoveFromGroupCall(d.systemId, src, volumeId),
                                   EditGroupCall(d.systemId, dst, AddVolume([volumeId])),
                                   GetVolumeCall(d.systemId, volumeId)]
      && volumeId in a.table
      && var rec := a.table[volumeId];
         out.1.value == InspectedVolume(rec)
  }

  /** The move succeeds exactly when the removal, the add and the fetch
      all succeed: nothing but a refusal stops it. */
  ghost predicate MoveSucceedsWhenAllPass(d: Driver, a: Array, volumeId: string, src: string, dst: string,
                                          out: (Array, Result<Volume, Error>))
  {
    var removal := DeleteVolumeFromStorageGroup(a, d.systemId, src, volumeId);
    var add := EditStorageGroup(removal.0, d.systemId, dst, AddVolume([volumeId]));
    out.1.Success? <==>
      && removal.1.Pass? && add.1.Pass?
      && volumeId != "" && GetVolumeResponse(a, d.systemId, volumeId).Success?
  }

  lemma OthersUnchangedTransitive(g1: map<string, set<string>>, g2: map<string, set<string>>,
                                  g3: map<string, set<string>>, id: string)
    requires OthersUnchanged(g1, g2, id) && OthersUnchanged(g2, g3, id)
    ensures OthersUnchanged(g1, g3, id)
  {
  }

  /** A membership call changes only the membership of its volume. */
  lemma {:induction false} RemovalFrame(a: Array, sid: string, g: string, id: string)
    ensures var a1 := DeleteVolumeFromStorageGroup(a, sid, g, id).0;
            && a1 == a.(groups := a1.groups, calls := a.calls + [RemoveFromGroupCall(sid, g, id)])
            && OthersUnchanged(a.groups, a1.groups, id)
  {
  }

  lemma {:induction false} AddFrame(a: Array, sid: string, g: string, id: string)
    ensures var a1 := EditStorageGroup(a, sid, g, AddVolume([id])).0;
            && a1 == a.(groups := a1.groups, calls := a.calls + [EditGroupCall(sid, g, AddVolume([id]))])
            && OthersUnchanged(a.groups, a1.groups, id)
  {
    var c := EditGroupCall(sid, g, AddVolume([id]));
    var r := EditGroup(a, sid, g, AddVolume([id]), c);
    if r.Success? {
      assert [id][0] == id;
      assert (set i | 0 <= i < |[id]| :: [id][i]) == {id};
      assert r.value.groups == a.groups[g := a.groups[g] + {id}];
    }
  }

  lemma {:induction false} MoveFrameHolds(d: Driver, a: Array, volumeId: string, src: string, dst: string)
    ensures MoveFrame(d, a, volumeId, src, MoveVolume(d, a, volumeId, src, dst).0)
  {
    var sid := d.systemId;
    RemovalFrame(a, sid, src, volumeId);
    var (a1, removed) := DeleteVolumeFromStorageGroup(a, sid, src, volumeId);
    if removed.Pass? {
      AddFrame(a1, sid, dst, volumeId);
      var (a2, added) := EditStorageGroup(a1, sid, dst, AddVolume([volumeId]));
      OthersUnchangedTransitive(a.groups, a1.groups, a2.groups, volumeId);
      if added.Pass? {
        var a3 := VolumeInspect(d, a2, volumeId).0;
        assert a3.groups == a2.groups;
        assert a3.calls[..|a.calls|] == a.calls;
      } else {
        assert a2.calls[..|a.calls|] == a.calls;
      }
    }
  }

  lemma MoveRefusalsHold(d: Driver, a: Array, volumeId: string, src: string, dst: string)
    ensures MoveStopsOnRefusedRemoval(d, a, volumeId, src, MoveVolume(d, a, volumeId, src, dst))
    ensures MoveKeepsRefusedAdd(d, a, volumeId, src, dst, MoveVolume(d, a, volumeId, src, dst))
  {
  }

  lemma {:induction false} MoveFailedInspectHolds(d: Driver, a: Array, volumeId: string, src: string, dst: string)
    requires src != dst
    ensures MoveKeepsFailedInspect(d, a, volumeId, src, dst, MoveVolume(d, a, volumeId, src, dst))
  {
    var (a1, removed) := DeleteVolumeFromStorageGroup(a, d.systemId, src, volumeId);
    if removed.Pass? {
      var (a2, added) := EditStorageGroup(a1, d.systemId, dst, AddVolume([volumeId]));
      if added.Pass? {
        assert [volumeId][0] == volumeId;
        assert (set i | 0 <= i < |[volumeId]| :: [volumeId][i]) == {volumeId};
        assert a2.groups == Moved(a.groups, volumeId, src, dst);
      }
    }
  }

  lemma {:induction false} MoveSuccessHolds(d: Driver, a: Array, volumeId: string, src: string, dst: string)
    requires src != dst
    ensures MoveOnSuccess(d, a, volumeId, src, dst, MoveVolume(d, a, volumeId, src, dst))
  {
    var (a1, removed) := DeleteVolumeFromStorageGroup(a, d.systemId, src, volumeId);
    if removed.Pass? {
      var (a2, added) := EditStorageGroup(a1, d.systemId, dst, AddVolume([volumeId]));
      if added.Pass? {
        assert [volumeId][0] == volumeId;
        assert (set i | 0 <= i < |[volumeId]| :: [volumeId][i]) == {volumeId};
        assert a2.groups == Moved(a.groups, volumeId, src, dst);
      }
    }
  }

  lemma {:induction false} MoveCompletesWhenAllPass(d: Driver, a: Array, volumeId: string, src: string, dst: string)
    ensures MoveSucceedsWhenAllPass(d, a, volumeId, src, dst, MoveVolume(d, a, volumeId, src, dst))
  {
    var (a1, removed) := DeleteVolumeFromStorageGroup(a, d.systemId, src, volumeId);
    if removed.Pass? {
      var (a2, added) := EditStorageGroup(a1, d.systemId, dst, AddVolume([volumeId]));
      if added.Pass? && volumeId != "" {
        assert GetVolumeResponse(a2, d.systemId, volumeId) == GetVolumeResponse(a, d.systemId, volumeId);
      }
    }
  }

  lemma {:induction false} MoveVolumeContract(d: Driver, a: Array, volumeId: string, src: string, dst: string)
    requires src != dst
    ensures MovedAsSpecified(d, a, volumeId, src, dst, MoveVolume(d, a, volumeId, src, dst))
  {
    MoveFrameHolds(d, a, volumeId, src, dst);
    MoveRefusalsHold(d, a, volumeId, src, dst);
    MoveFailedInspectHolds(d, a, volumeId, src, dst);
    MoveSuccessHolds(d, a, volumeId, src, dst);
    MoveCompletesWhenAllPass(d, a, volumeId, src, dst);
  }

  /** `VolumeAttach`: move the volume from the detached to the attached
      group, and return the re-inspected volume with its ID. */
  function VolumeAttach(d: Driver, a: Array, volumeId: string): (out: (Array, Result<(Volume, string), Error>))
    ensures MovedAsSpecified(d, a, volumeId, DetachedGroup, AttachedGroup,
                             (out.0, match out.1 case Success(p) => Success(p.0) case Failure(e) => Failure(e)))
    ensures out.1.Success? ==> out.1.value.1 == out.1.value.0.id
  {
    MoveVolumeContract(d, a, volumeId, DetachedGroup, AttachedGroup);
    var (a', moved) := MoveVolume(d, a, volumeId, DetachedGroup, AttachedGroup);
    match moved
    case Failure(e) => (a', Failure(e))
    case Success(v) => (a', Success((v, v.id)))
  }

  /** `VolumeDetach`: move the volume from the attached back to the
      detached group and return the re-inspected volume. */
  function VolumeDetach(d: Driver, a: Array, volumeId: string): (out: (Array, Result<Volume, Error>))
    ensures MovedAsSpecified(d, a, volumeId, AttachedGroup, DetachedGroup, out)
  {
    MoveVolumeContract(d, a, volumeId, AttachedGroup, DetachedGroup);
    MoveVolume(d, a, volumeId, AttachedGroup, DetachedGroup)
  }
}

=== FILE: vmax_storage_properties.dfy ===
/** Properties that relate several driver operations to one another and
    to the array's consistency. */
module VmaxStorageProperties {
  import opened Wrappers
  import opened VmaxArray
  import opened VmaxStorage
  import Decimal

  /** Attaching and then detaching a volume puts both groups back exactly as
      they were (and the volume table was never touched). */
  lemma {:induction false} AttachThenDetachRestores(d: Driver, a: Array, volumeId: string)
    requires VolumeAttach(d, a, volumeId).1.Success?
    requires VolumeDetach(d, VolumeAttach(d, a, volumeId).0, volumeId).1.Success?
    ensures var a2 := VolumeDetach(d, VolumeAttach(d, a, volumeId).0, volumeId).0;
            && a2.groups == a.groups
            && a2.table == a.table
            && a2.order == a.order
            && a2.nextId == a.nextId
  {
    MoveBackRestores(a.groups, volumeId, DetachedGroup, AttachedGroup);
  }

  /** Moving a volume to another group and back restores the membership it
      started from, provided it started in the first group only. */
  lemma MoveBackRestores(groups: map<string, set<string>>, id: string, src: string, dst: string)
    requires src != dst && src in groups && dst in groups
    requires id in groups[src] && id !in groups[dst]
    ensures Moved(Moved(groups, id, src, dst), id, dst, src) == groups
  {
    var back := Moved(Moved(groups, id, src, dst), id, dst, src);
    assert back[src] == groups[src];
    assert back[dst] == groups[dst];
  }

  /** After a successful attach, detaching succeeds unless the transport
      fails on one of its two membership calls: nothing in the array state
      stands in its way. */
  lemma {:induction false} DetachAfterAttachSucceeds(d: Driver, a: Array, volumeId: string)
    requires VolumeAttach(d, a, volumeId).1.Success?
    requires RemoveFromGroupCall(d.systemId, AttachedGroup, volumeId) !in a.faults
    requires EditGroupCall(d.systemId, DetachedGroup, AddVolume([volumeId])) !in a.faults
    ensures VolumeDetach(d, VolumeAttach(d, a, volumeId).0, volumeId).1.Success?
  {
    var a1 := VolumeAttach(d, a, volumeId).0;
    assert a1 == a.(groups := a1.groups, calls := a1.calls);
    assert a1.groups == Moved(a.groups, volumeId, DetachedGroup, AttachedGroup);
    assert GetVolumeResponse(a1, d.systemId, volumeId) == GetVolumeResponse(a, d.systemId, volumeId);
    var (b1, removed) := DeleteVolumeFromStorageGroup(a1, d.systemId, AttachedGroup, volumeId);
    assert removed.Pass?;
    var (b2, added) := EditStorageGroup(b1, d.systemId, DetachedGroup, AddVolume([volumeId]));
    assert [volumeId][0] == volumeId;
    assert added.Pass?;
    assert GetVolumeResponse(b2, d.systemId, volumeId) == GetVolumeResponse(a, d.systemId, volumeId);
  }

  /** On a consistent array, inspecting a volume reports the ID it was asked
      about, so attach's second result is the requested volume ID. */
  lemma InspectReportsRequestedId(d: Driver, a: Array, volumeId: string)
    requires Wf(a)
    requires VolumeInspect(d, a, volumeId).1.Success?
    ensures VolumeInspect(d, a, volumeId).1.value.id == volumeId
  {
  }

  /** On a consistent array, the volume a listing reports for an ID is
      exactly what inspecting that ID reports. */
  lemma ListedIsInspected(d: Driver, a: Array, id: string)
    requires Wf(a)
    requires GetVolumeResponse(a, d.systemId, id).Success?
    ensures VolumeInspect(d, a, id).1 == Success(ListedVolume(id, GetVolumeResponse(a, d.systemId, id).value))
  {
  }

  lemma {:induction false} AttachReportsRequestedId(d: Driver, a: Array, volumeId: string)
    requires Wf(a)
    requires VolumeAttach(d, a, volumeId).1.Success?
    ensures VolumeAttach(d, a, volumeId).1.value.1 == volumeId
  {
    var (a1, _) := DeleteVolumeFromStorageGroup(a, d.systemId, DetachedGroup, volumeId);
    var (a2, _) := EditStorageGroup(a1, d.systemId, AttachedGroup, AddVolume([volumeId]));
    RemoveFromGroupPreservesWf(a, d.systemId, DetachedGroup, volumeId);
    EditStorageGroupPreservesWf(a1, d.systemId, AttachedGroup, AddVolume([volumeId]));
    InspectReportsRequestedId(d, a2, volumeId);
  }

  /** A successful create adds exactly one volume, under a fresh ID, to the
      detached group; inspecting it reports the requested size (the size
      text round-trips), the "FBA" emulation and no name. */
  lemma {:induction false} CreatedVolumeIsInspectable(d: Driver, a: Array, volumeName: string, opts: VolumeCreateOpts)
    requires Wf(a)
    requires VolumeCreate(d, a, volumeName, opts).1.Success?
    ensures var a' := VolumeCreate(d, a, volumeName, opts).0;
            var id := Decimal.FormatInt(a.nextId);
            && id !in a.table
            && a'.table.Keys == a.table.Keys + {id}
            && (forall v | v in a.table :: a'.table[v] == a.table[v])
            && a'.groups == a.groups[DetachedGroup := a.groups[DetachedGroup] + {id}]
            && a'.order == a.order + [id]
            && a'.nextId == a.nextId + 1
            && a' == a.(table := a'.table, order := a'.order, groups := a'.groups, nextId := a'.nextId, calls := a'.calls)
            && (GetVolumeCall(d.systemId, id) !in a.faults ==>
                  VolumeInspect(d, a', id).1 == Success(Volume("", id, "", "FBA", opts.size.GetOr(0), "")))
  {
    var size := opts.size.GetOr(0);
    var req := CreateRequest(size);
    var id := Decimal.FormatInt(a.nextId);
    NextIdIsFresh(a);
    assert Decimal.ParseInt(req.expand.volumeAttribute.volumeSize) == Some(size);
    var a' := VolumeCreate(d, a, volumeName, opts).0;
    assert a'.table == a.table[id := VolumeRecord(id, "", "FBA", size)];
  }

  /** No driver operation moves the next volume number backwards, so on a
      consistent array an ID once handed out is never handed out again;
      only a successful create advances it. */
  lemma NextIdNeverDecreases(d: Driver, a: Array, volumeId: string, volumeName: string, opts: VolumeCreateOpts)
    ensures VolumeInspect(d, a, volumeId).0.nextId == a.nextId
    ensures VolumeRemove(d, a, volumeId).0.nextId == a.nextId
    ensures VolumeAttach(d, a, volumeId).0.nextId == a.nextId
    ensures VolumeDetach(d, a, volumeId).0.nextId == a.nextId
    ensures var a' := VolumeCreate(d, a, volumeName, opts);
            a'.0.nextId == if a'.1.Success? then a.nextId + 1 else a.nextId
  {
    CreateAdvancesNextId(d, a, volumeName, opts);
  }

  lemma CreateAdvancesNextId(d: Driver, a: Array, volumeName: string, opts: VolumeCreateOpts)
    ensures var a' := VolumeCreate(d, a, volumeName, opts);
            a'.0.nextId == if a'.1.Success? then a.nextId + 1 else a.nextId
  {
    var req := CreateRequest(opts.size.GetOr(0));
    var c := CreateVolumeCall(d.systemId, DetachedGroup, req);
    var r := EditGroup(a, d.systemId, DetachedGroup, req, c);
    if r.Success? {
      assert r.value.nextId == a.nextId + 1;
    }
  }

  /** After a successful remove, inspecting the volume fails, and it fails as
      "not found" unless the transport fails (an empty ID fails before any
      call). */
  lemma RemovedVolumeIsGone(d: Driver, a: Array, volumeId: string)
    requires VolumeRemove(d, a, volumeId).1.Pass?
    ensures var a' := VolumeRemove(d, a, volumeId).0;
            && VolumeInspect(d, a', volumeId).1.Failure?
            && (volumeId != "" && GetVolumeCall(d.systemId, volumeId) !in a.faults ==>
                  ErrorKind(VolumeInspect(d, a', volumeId).1.error) == Some(NotFound))
  {
  }

  /** Removing a volume the array does not have surfaces a "not found"
      error, unless the transport fails first. */
  lemma RemoveMissingIsNotFound(d: Driver, a: Array, volumeId: string)
    requires volumeId !in a.table
    requires DeleteVolumeCall(d.systemId, DetachedGroup, volumeId) !in a.faults
    ensures VolumeRemove(d, a, volumeId).1.Fail?
    ensures ErrorKind(VolumeRemove(d, a, volumeId).1.error) == Some(NotFound)
  {
  }

  /** An attached volume cannot be removed: the array refuses to delete a
      volume that is still in the attached group, as a conflict when nothing
      else is wrong with the request. */
  lemma RemoveAttachedIsRefused(d: Driver, a: Array, volumeId: string)
    requires AttachedGroup in a.groups && volumeId in a.groups[AttachedGroup]
    ensures VolumeRemove(d, a, volumeId).1.Fail?
    ensures && DeleteVolumeCall(d.systemId, DetachedGroup, volumeId) !in a.faults
            && d.systemId == a.symmetrixId
            && volumeId in a.table
            && DetachedGroup in a.groups && volumeId in a.groups[DetachedGroup]
            ==> ErrorKind(VolumeRemove(d, a, volumeId).1.error) == Some(Conflict)
  {
  }

  /** The volume name plays no part in creation. */
  lemma CreateIgnoresName(d: Driver, a: Array, n1: string, n2: string, opts: VolumeCreateOpts)
    ensures VolumeCreate(d, a, n1, opts) == VolumeCreate(d, a, n2, opts)
  {
  }

  /** Applying `eff` to its own result changes nothing. */
  lemma EffIdempotent(fields: Option<Fields>)
    ensures Eff(Some(Eff(fields))) == Eff(fields)
  {
  }

  lemma {:induction false} MovePreservesWf(d: Driver, a: Array, volumeId: string, src: string, dst: string)
    requires Wf(a) && src != dst
    ensures Wf(MoveVolume(d, a, volumeId, src, dst).0)
  {
    var add := AddVolume([volumeId]);
    RemoveFromGroupPreservesWf(a, d.systemId, src, volumeId);
    var (a1, removed) := DeleteVolumeFromStorageGroup(a, d.systemId, src, volumeId);
    if removed.Pass? {
      EditStorageGroupPreservesWf(a1, d.systemId, dst, add);
      var (a2, added) := EditStorageGroup(a1, d.systemId, dst, add);
      if added.Pass? {
        LogPreservesWf(a2, GetVolumeCall(d.systemId, volumeId));
      }
    }
  }

  /** Every driver operation keeps a consistent array consistent. */
  lemma InspectPreservesWf(d: Driver, a: Array, volumeId: string)
    requires Wf(a)
    ensures Wf(VolumeInspect(d, a, volumeId).0)
  {
    LogPreservesWf(a, GetVolumeCall(d.systemId, volumeId));
  }

  lemma CreatePreservesWf(d: Driver, a: Array, volumeName: string, opts: VolumeCreateOpts)
    requires Wf(a)
    ensures Wf(VolumeCreate(d, a, volumeName, opts).0)
  {
    CreateVolumePreservesWf(a, d.systemId, DetachedGroup, CreateRequest(opts.size.GetOr(0)));
  }

  lemma RemovePreservesWf(d: Driver, a: Array, volumeId: string)
    requires Wf(a)
    ensures Wf(VolumeRemove(d, a, volumeId).0)
  {
    DeleteVolumePreservesWf(a, d.systemId, DetachedGroup, volumeId);
  }

  lemma AttachDetachPreserveWf(d: Driver, a: Array, volumeId: string)
    requires Wf(a)
    ensures Wf(VolumeAttach(d, a, volumeId).0)
    ensures Wf(VolumeDetach(d, a, volumeId).0)
  {
    MovePreservesWf(d, a, volumeId, DetachedGroup, AttachedGroup);
    MovePreservesWf(d, a, volumeId, AttachedGroup, DetachedGroup);
  }
}

=== FILE: wrappers.dfy ===
/** Failure-carrying values used throughout the model: Go's `(T, error)`
    pairs become `Result`, a bare `error` return becomes `Outcome`, and a
    nil-able pointer option becomes `Option`. */
module Wrappers {

  datatype Option<+T> = None | Some(value: T) {
    /** The value, or `default` when absent (Go's `if p != nil { x = *p }`). */
    function GetOr(default: T): T {
      match this
      case Some(v) => v
      case None => default
    }
  }

  datatype Result<+R, +E> = Success(value: R) | Failure(error: E)

  datatype Outcome<+E> = Pass | Fail(error: E)
}
